=== FILE: README.md ===
# BillyBot: a Dafny model of the request and state logic

BillyBot is a policy chatbot. Users put PDF documents into a Chroma vector
store. They then ask questions, which a local Ollama model answers from the
retrieved chunks. There are two front ends:

- a React client (a settings store, an upload workflow, a chat workflow and
  two axios instances);
- a single-process Streamlit app.

Behind the React client sits a FastAPI backend; its modelled endpoints are
`/upload` and `/ask`. This project models the decision logic of all of these, and the
prompt construction they share, as pure Dafny functions and methods.

Modules, one per source file, plus three shared modules (`Common`, `Http`
and `EndToEnd`):

| module | file | models |
|---|---|---|
| `Common` | common.dfy | JSON-like values with JavaScript truthiness, `\|\|`, `?.` and Python `dict.get`; decimal rendering of numbers; `join`; JavaScript `trim` and Python `strip` with their exact whitespace sets |
| `SettingsContext` | settings_context.dfy | the settings store and its single-field update |
| `Http` | http.dfy | requests, responses and axios errors as values |
| `AuthService` | auth_service.dfy | the axios instance with the bearer-token request interceptor (section 2.1 of RFC 6750) |
| `ApiService` | api_service.dfy | the axios instance of the workflows: its response interceptor and its requests |
| `FileUpload` | file_upload.dfy | the upload workflow |
| `ChatInterface` | chat_interface.dfy | the chat workflow |
| `Chatbot` | chatbot.dfy | `build_prompt` and `answer_question` |
| `BackendMain` | backend_main.dfy | the `/upload` and `/ask` endpoints around the global `manager` |
| `StreamlitApp` | streamlit_app.dfy | the manager rebuild check, `safe_delete_database`, the DELETE gate, the question tab |
| `EndToEnd` | end_to_end.dfy | client and backend put together |

Modelling conventions:

- **Oracles.** Everything outside the program is a parameter, not a computation:
  - the network's reply (`Http.Reply`);
  - whether the `VectorStoreManager` constructor returned;
  - the result or exception text of ingestion, loading, similarity search and the language model;
  - what each deletion attempt meets (`nat -> Attempt`);
  - whether the database directory exists;
  - the stored token.
- **React awaits.** Each awaited call is split into two events:
  - a start event, which sends the request;
  - a completion event, which receives the oracle's answer.

  Completions act on the state current at that moment, as React's functional
  `setX(prev => ...)` updates do.
- **Streamlit session state.** It is a value threaded through the functions.
  A "run" is one execution of the script.

## Model

| member | source | states |
|---|---|---|
| Common.Field | frontend/src/components/FileUpload.js:51 | for the keys the client reads (`detail`, `message`, `answer`), `v?.key` is the key's value when `v` is an object holding it and `undefined` otherwise |
| Common.Truthy | frontend/src/components/FileUpload.js:51 | JavaScript truthiness of the modelled values: `undefined`, `null`, `false`, `0` and `""` are falsy; every other boolean, number and string and every object is truthy |
| Common.Or | frontend/src/components/FileUpload.js:51 | `a \|\| b` is `a` when `a` is truthy and `b` otherwise, as the fallbacks of FileUpload.js:51 and ChatInterface.js:37 use it |
| Common.IntToString | frontend/src/components/ChatInterface.js:37 | an integer's decimal text, with a leading `-` for a negative one; `Common.NatToStringRoundTrip` reads the digits back |
| Common.JsString | frontend/src/components/ChatInterface.js:37 | the text a template literal `${…}` gives a detail: `undefined`, `null`, `true`/`false`, the integer's decimal text, the string itself, or `[object Object]` |
| Common.Get | backend/main.py:44-47 | `d.get(key, default)` is the stored value when the key is present and the default exactly when it is absent |
| Common.NatToStringRoundTrip | backend/main.py:74 | the decimal text the count message embeds reads back as the count, so distinct counts give distinct messages |
| Common.Trim | frontend/src/components/ChatInterface.js:23 | trimming yields a contiguous slice whose cut-off prefix and suffix are all whitespace and whose first and last characters are not; it is empty iff the input is all whitespace |
| Common.TrimIdempotent | frontend/src/components/ChatInterface.js:23-31 | trimming an already trimmed question changes nothing |
| Common.JoinContainsPiece | backend/chatbot.py:14 | every piece occurs in the joined text at `JoinOffset`, the total length of the pieces and separators before it; each piece but the last is followed directly by the separator, and the next piece starts right after it, so the pieces keep their order; the last piece ends the text. With the lengths, these fix every character of the joined text |
| Common.JoinLength | backend/chatbot.py:14 | the joined text ends where the last piece ends: nothing follows it |
| Common.Join | backend/chatbot.py:14 | `sep.join(pieces)`: no pieces give the empty text and one piece gives itself; `Common.JoinContainsPiece` places every piece, in order and separated by `sep`, in the result, and `Common.JoinLength` says nothing follows the last piece |
| Common.JoinCons | backend/chatbot.py:14 | with two or more pieces, the first piece occurs at the start of the joined text, the separator right after it and the join of the rest right after that; their lengths add up to the whole |
| Common.JoinPieceAt | backend/chatbot.py:14 | every piece occurs in the joined text at its `JoinOffset` |
| Common.JoinSeparatorAfter | backend/chatbot.py:14 | each piece but the last is followed directly by the separator, and the next piece's offset is this piece's offset plus the lengths of the piece and the separator |
| Common.EndsWith | backend/main.py:53 | `s.endswith(suffix)`: the last characters of `s` are exactly `suffix`, compared case-sensitively |
| Common.JsTrim | frontend/src/components/ChatInterface.js:23 | JavaScript `trim()`, `Common.Trim` with the ECMAScript whitespace set |
| Common.PyStrip | streamlit_app.py:362 | Python `strip()`, `Common.Trim` with the set of characters `str.isspace()` accepts |
| SettingsContext.DefaultSettings | frontend/src/context/SettingsContext.js:14-21 | the store starts with exactly the six keys persistDir, embeddingModel, llmModel, topK, chunkSize, chunkOverlap, holding chroma_kb_db, nomic-embed-text, llama3, 4, 1000, 150 |
| SettingsContext.UpdateSetting | frontend/src/context/SettingsContext.js:23-28 | after `updateSetting(key, value)` the key holds the value, every other field keeps its value, and no field disappears |
| SettingsContext.UpdateIdempotent | frontend/src/context/SettingsContext.js:23-28 | repeating an update changes nothing |
| SettingsContext.UpdatesCommute | frontend/src/context/SettingsContext.js:23-28 | updates of different keys can be applied in either order |
| SettingsContext.LastUpdateWins | frontend/src/context/SettingsContext.js:23-28 | a later update of a key overrides an earlier one |
| SettingsContext.UpdatesKeepFields | frontend/src/context/SettingsContext.js:23-28 | after any sequence of updates, every initial key is still present, and a key no update targets keeps its initial value |
| SettingsContext.UseSettings | frontend/src/context/SettingsContext.js:5-11 | the hook returns the provider's value iff one encloses the caller, and otherwise fails with the exact error text |
| Http.Detail | frontend/src/components/FileUpload.js:51 | `error.response?.data?.detail` is undefined without a response and the body's `detail` field otherwise |
| Http.BaseUrl | frontend/src/services/api.js:3 | the base URL is the environment's URL when that is set and non-empty, `http://localhost:8000` otherwise |
| Http.AccessThrows | frontend/src/components/FileUpload.js:46 | a plain property read such as `response.message` (and `response.answer`, ChatInterface.js:32) throws exactly when the body is `null` or `undefined` |
| Http.AccessError | frontend/src/components/FileUpload.js:46 | the `TypeError` a plain property read on null or undefined throws carries no response, so the `catch` block finds no `detail` |
| AuthService.Intercept | frontend/src/services/auth.js:13-19 | a truthy stored token adds `Authorization: Bearer <token>`; otherwise the request passes untouched; no other header, the method, path, body or timeout ever changes |
| AuthService.BearerRoundTrip | frontend/src/services/auth.js:13-19 | the header written carries exactly the stored token: parsing the credential back gives the token |
| AuthService.AuthorizationIffToken | frontend/src/services/auth.js:13-19 | a request gains an Authorization header iff a non-empty token is stored |
| AuthService.LoginUser | frontend/src/services/auth.js:21-27 | POST /login with exactly the fields email and password, resolving to the response body or rejecting with the axios error |
| AuthService.RegisterUser | frontend/src/services/auth.js:29-36 | POST /register with exactly the fields email, username and password, resolving to the body or rejecting |
| AuthService.GetCurrentUser | frontend/src/services/auth.js:38-41 | GET /me without a body, carrying the bearer credential iff a token is stored |
| ApiService.Classify | frontend/src/services/api.js:15-27 | every failure falls into exactly one of three kinds: server responded, no response, or setup failed |
| ApiService.Intercept | frontend/src/services/api.js:13-28 | the response interceptor never changes the outcome; it logs iff the call failed, under that failure's kind |
| ApiService.GetHealth | frontend/src/services/api.js:33-40 | succeeds iff the call does, with the health body; every failure becomes the single fixed message |
| ApiService.HealthRequest | frontend/src/services/api.js:35 | GET /health without an Authorization header |
| ApiService.StatusRequest | frontend/src/services/api.js:45-48 | GET /status without an Authorization header |
| ApiService.UploadRequest | frontend/src/services/api.js:53-61 | a multipart POST /upload carrying the form as given, whose only configured header is the multipart content type (how the browser completes it is left out with multipart encoding), with a 60000 ms timeout |
| ApiService.AskRequest | frontend/src/services/api.js:66-72 | POST /ask with exactly the fields question and settings, no Authorization header and no timeout |
| ApiService.ClearDatabaseRequest | frontend/src/services/api.js:77-80 | DELETE /clear-database without a body and without an Authorization header |
| ApiService.RegisterRequest | frontend/src/services/api.js:85-88 | this instance's POST /register sends only email and password (no username) and no Authorization header |
| ApiService.LoginRequest | frontend/src/services/api.js:90-93 | this instance's POST /login sends email and password and no Authorization header |
| FileUpload.PdfFiles | frontend/src/components/FileUpload.js:14 | everything the filter keeps has media type application/pdf, and the filter never lengthens the list |
| FileUpload.PdfFilesMembers | frontend/src/components/FileUpload.js:14 | a file survives the filter iff it was offered and its media type is application/pdf |
| FileUpload.PdfFilesCount | frontend/src/components/FileUpload.js:14 | every PDF is kept as often as it was offered, and every other file is dropped |
| FileUpload.PdfFilesAppend | frontend/src/components/FileUpload.js:13-16 | filtering distributes over concatenation, so accepted files keep their relative order |
| FileUpload.PdfFilesOfPdfs | frontend/src/components/FileUpload.js:14 | a list of PDFs passes the filter unchanged |
| FileUpload.OnDrop | frontend/src/components/FileUpload.js:13-16 | a drop appends exactly the accepted PDFs after the untouched batch; the flag and the status are not touched |
| FileUpload.WithoutIndexFrom | frontend/src/components/FileUpload.js:27 | filtering by `i !== index` removes exactly the element at that position; other elements keep their order, and an out-of-range index removes nothing |
| FileUpload.RemoveFile | frontend/src/components/FileUpload.js:26-28 | removing index i deletes exactly file i; any index outside the batch, negative included, changes nothing |
| FileUpload.UploadForm | frontend/src/components/FileUpload.js:37-43 | the form has one `files` part per batch file, in batch order, followed by one `settings` part holding the settings object |
| FileUpload.UploadButtonEnabled | frontend/src/components/FileUpload.js:119-122 | the Upload button is shown only for a non-empty batch and is disabled while an upload is in flight; `FileUpload.StartIgnoresUploading` relates it to `handleUpload` |
| FileUpload.StartUpload | frontend/src/components/FileUpload.js:30-45 | an empty batch sends nothing and changes nothing; otherwise the flag is raised, the status cleared and the whole batch sent with the current settings |
| FileUpload.FinishUpload | frontend/src/components/FileUpload.js:45-55 | the status is a success iff the reply succeeded with a body that is not null or undefined; then the batch is emptied and the response's message shown. A null or undefined body makes `response.message` throw, so the batch is kept with 'Upload failed'. A failure keeps the batch and shows the detail, or 'Upload failed' when the detail is falsy. The flag drops either way |
| FileUpload.UploadCaught | frontend/src/components/FileUpload.js:48-55 | the `catch` block: the batch is kept, the status shows the detail or 'Upload failed', and the flag drops |
| FileUpload.RunKeepsAllPdf | frontend/src/components/FileUpload.js:13-56 | whatever events happen, the batch only ever holds PDFs |
| FileUpload.UploadRoundTrip | frontend/src/components/FileUpload.js:30-56 | an upload answered at once ends with the flag down; the batch is emptied iff the reply succeeded with a readable body (not null or undefined), and otherwise exactly the batch sent is kept with an error status |
| FileUpload.StartIgnoresUploading | frontend/src/components/FileUpload.js:30-34 | `handleUpload` does not look at the flag: during an upload the button is disabled, yet calling the function sends the batch again |
| ChatInterface.EditQuery | frontend/src/components/ChatInterface.js:146 | typing replaces the query with the input's text and leaves the conversation and the flag alone |
| ChatInterface.AskButtonEnabled | frontend/src/components/ChatInterface.js:154 | the Ask button is enabled iff the trimmed query is non-empty and no answer is awaited; `ChatInterface.SubmitGuardIsButton` relates it to `handleSubmit` |
| ChatInterface.Submit | frontend/src/components/ChatInterface.js:21-31 | nothing is sent iff the trimmed query is blank or an answer is awaited; otherwise the trimmed question is appended as a user turn, the input cleared, the flag raised and the trimmed question sent |
| ChatInterface.FinishAsk | frontend/src/components/ChatInterface.js:30-43 | exactly one bot turn is appended and earlier turns are untouched. It is a plain answer iff the reply succeeded with a body that is not null or undefined, and then holds the `answer` field. A null or undefined body makes `response.answer` throw and gives `Error: Failed to get response`. A failure gives `Error: ` with the detail, or 'Failed to get response' when the detail is falsy. The flag drops |
| ChatInterface.ErrorTurn | frontend/src/components/ChatInterface.js:35-39 | the error turn: `Error: ` followed by the detail, or 'Failed to get response' when there is none, marked as an error |
| ChatInterface.ClearChat | frontend/src/components/ChatInterface.js:46-48 | clearing empties the conversation and leaves the input and the flag alone |
| ChatInterface.Handle | frontend/src/components/ChatInterface.js:21-48 | only Clear empties the conversation; every other event keeps the existing turns as a prefix |
| ChatInterface.RunAppendOnly | frontend/src/components/ChatInterface.js:21-48 | between clears the conversation is append-only: no turn is ever changed, removed or reordered |
| ChatInterface.AskGrowsByTwo | frontend/src/components/ChatInterface.js:21-44 | an accepted question answered at once adds exactly a user turn and then a bot turn |
| ChatInterface.NoSecondQuestionInFlight | frontend/src/components/ChatInterface.js:23 | while an answer is awaited a second submit sends nothing, whatever has been typed meanwhile |
| ChatInterface.SubmitGuardIsButton | frontend/src/components/ChatInterface.js:23 | the early return of `handleSubmit` tests exactly the condition that disables the Ask button (line 154), so a question is sent iff the button can be pressed |
| ChatInterface.SentQuestionIsTrimmed | frontend/src/components/ChatInterface.js:23-31 | the text sent is non-empty and neither starts nor ends with whitespace |
| Chatbot.SourceLabel | backend/chatbot.py:12 | a document's label is its `source` metadata, or `doc<i>` for its 1-based position when it has none |
| Chatbot.RenderDoc | backend/chatbot.py:13 | one context piece, the bracketed label, a newline and the page text; its layout is stated by `Chatbot.PieceLayout` |
| Chatbot.PieceLayout | backend/chatbot.py:13 | a context piece opens with the bracketed label, and the page text follows the label's line at the offset after it |
| Chatbot.ContextOrder | backend/chatbot.py:11-14 | the context block holds the rendered documents in retrieval order: each piece at its join offset, followed directly by "\n\n---\n\n" and then by the next document's piece; the last document's piece ends the block |
| Chatbot.PieceInContext | backend/chatbot.py:11-14 | the `k`-th document's rendered piece, numbered `k + 1`, sits in the context block at its join offset |
| Chatbot.DocInContext | backend/chatbot.py:11-14 | the text of every retrieved document occurs in the joined context block, right after its label line within its piece |
| Chatbot.PromptLayout | backend/chatbot.py:9-21 | the prompt is the instruction head, then the joined context, then the question block with the closing line, each at the position the lengths before it give |
| Chatbot.BuildPrompt | backend/chatbot.py:9-21 | `build_prompt`; what it contains and where is stated by `Chatbot.PromptLayout`, `Chatbot.QuestionRecoverable` and `Chatbot.PromptMentionsEverything` |
| Chatbot.ContextInPrompt | backend/chatbot.py:15-17 | the joined context sits in the prompt right after the instruction head |
| Chatbot.QuestionInTail | backend/chatbot.py:18-19 | inside the question block the question follows the `QUESTION:` line and precedes the closing line |
| Chatbot.QuestionRecoverable | backend/chatbot.py:18 | the question sits verbatim just before the closing line |
| Chatbot.DocInPrompt | backend/chatbot.py:11-17 | the text of every retrieved document occurs in the prompt |
| Chatbot.PromptMentionsEverything | backend/chatbot.py:9-21 | the prompt contains the question and every retrieved document's text |
| Chatbot.AnswerQuestion | backend/chatbot.py:24-31 | the search asks for exactly `top_k` documents and a search failure propagates; the model is called iff documents were found, with the built prompt and the given model; no documents gives the fixed answer |
| BackendMain.ManagerConfigFrom | backend/main.py:43-48 | each manager argument is the settings value when the key is present, else the backend default chroma_hr_db, nomic-embed-text, 1000 or 150 |
| BackendMain.FirstNonPdf | backend/main.py:52-54 | no file is rejected iff every name ends with `.pdf` case-sensitively; otherwise the loop stops at the first name that does not |
| BackendMain.IngestedMessage | backend/main.py:74 | the success message "Successfully ingested <n> files into Chroma database" with the decimal count; `Common.NatToStringRoundTrip` makes distinct counts give distinct messages |
| BackendMain.NoDatabaseDetail | backend/main.py:92 | the 400 detail "No database loaded. Please upload files first." of a question asked with no manager |
| BackendMain.PyTypeName | backend/main.py:106-107 | the type name in the `'<type>' object has no attribute 'get'` error that non-dict settings raise and line 116 turns into a 500: NoneType, bool, int, str or dict |
| BackendMain.PyStr | backend/chatbot.py:18 | the text the f-string gives the question taken at main.py:96: a string is kept as is, a missing question prints `None`, booleans `True`/`False`, integers in decimal |
| BackendMain.HttpExceptionText | backend/main.py:85 | `str(e)` of an `HTTPException`, taken to be `<status>: <detail>` |
| BackendMain.UploadFiles | backend/main.py:38-85 | see the breakdown below |
| BackendMain.AnswerWithSettings | backend/main.py:94-116 | non-object settings fail with a 500 before anything is asked. Otherwise the answering step receives the question's Python `str`, topK (default 4) and llmModel (default llama3) as given; an answering failure becomes a 500 with its text, and success echoes the answer and the question |
| BackendMain.AskQuestion | backend/main.py:87-116 | the reply is the 400 "No database loaded" iff there is no manager; a loading failure becomes a 500 with nothing asked; otherwise the request's question (default null) and settings (default {}) are answered |
| BackendMain.RejectedUploadInstallsManager | backend/main.py:43-54 | an upload rejected for a non-PDF name still leaves a new manager behind, so a later question passes the no-database guard though nothing was ingested |
| StreamlitApp.RefreshManager | streamlit_app.py:218-242 | the manager is rebuilt iff there is none or the four store settings differ from the last build; a failing constructor stops the run with the state untouched. The notice follows the corrected condition of the Findings table: it is shown iff a build replaced earlier, different settings |
| StreamlitApp.NeedsRebuild | streamlit_app.py:226-229 | a rebuild is due when there is no manager or the store settings differ from those of the last build |
| StreamlitApp.SettingsNoticeAsWritten | streamlit_app.py:238 | the notice condition as the code evaluates it, testing `last_settings` after line 237 has assigned it |
| StreamlitApp.FirstRunBuildsDefaults | streamlit_app.py:169-212 | the first run with the sidebar untouched builds the manager from chroma_kb_db, nomic-embed-text, 1000 and 150 |
| StreamlitApp.RebuildIgnoresLlmAndTopK | streamlit_app.py:218-229 | changing the LLM model or top-k never causes a rebuild |
| StreamlitApp.RefreshIdempotent | streamlit_app.py:226-237 | after a successful build, a run with the same sidebar builds nothing and shows no notice |
| StreamlitApp.StoreChangeRebuilds | streamlit_app.py:226-237 | after a build, changing any store setting rebuilds with the new values and shows the notice |
| StreamlitApp.FirstRunNoticeAsWritten | streamlit_app.py:237-239 | as written, the "Settings updated!" notice is shown on the first run; the corrected condition is false there |
| StreamlitApp.NoticeAgreesAfterFirstBuild | streamlit_app.py:237-239 | once an earlier build exists, the condition as written and the corrected one agree |
| StreamlitApp.RebuildAfterRelease | streamlit_app.py:229-237 | a manager released by deletion with unchanged settings is rebuilt on the next run, without the notice |
| StreamlitApp.Render | streamlit_app.py:127-158 | the exact text of each message `safe_delete_database` returns |
| StreamlitApp.DeleteFrom | streamlit_app.py:117-158 | the retry loop as a recursion: attempt k ends the deletion unless it meets a PermissionError with attempts left, which hands over to attempt k + 1 |
| StreamlitApp.SafeDeleteDatabase | streamlit_app.py:94-158 | see the breakdown below |
| StreamlitApp.ThreeLocksFail | streamlit_app.py:94-153 | with the default three attempts, three PermissionErrors in a row fail with the lock message carrying the third error |
| StreamlitApp.ClearDatabase | streamlit_app.py:467-498 | nothing happens unless the confirmation text is exactly DELETE and the button was clicked. Then the deletion runs with three attempts, the manager is released, the conversation is emptied iff the deletion succeeded (kept otherwise), and the deletion's rendered message is shown |
| StreamlitApp.AskQuestion | streamlit_app.py:362-389 | see the breakdown below |
| StreamlitApp.FailureLeavesUnansweredTurn | streamlit_app.py:362-389 | an accepted question adds one user turn, and an assistant turn exactly when no error is shown |
| StreamlitApp.ChatTab | streamlit_app.py:342-362 | without the database directory nothing changes; Clear Chat empties the conversation and takes precedence over Ask; the conversation is never emptied otherwise |
| EndToEnd.ToAxios | backend/main.py:85 | a 2xx reply resolves with its body; an HTTPException's detail is what the client reads as `detail`; an unhandled crash carries no detail |
| EndToEnd.FormFilesOfUploadForm | frontend/src/components/FileUpload.js:37-43 | the backend receives every file of the client's form, and only those, in batch order |
| EndToEnd.ClientSettingsConfigureManager | backend/main.py:43-48 | see the breakdown below |
| EndToEnd.UploadEndToEnd | frontend/src/components/FileUpload.js:30-56 | a backend success empties the batch and shows the count message; any backend failure keeps the batch; a crash shows 'Upload failed' |
| EndToEnd.UppercaseNameRejectedByBackend | backend/main.py:52-54 | the backend's case-sensitive suffix check rejects "Report.PDF" with a 500 whose detail is the 400's text |
| EndToEnd.ClientKeepsRejectedBatch | frontend/src/components/FileUpload.js:48-52 | an `HTTPException` with a non-empty detail ends an upload with that detail as the error status and the batch kept |
| EndToEnd.UppercaseExtensionRejected | backend/main.py:53-54 | a PDF named Report.PDF is accepted by the client's media-type filter, rejected by the backend's suffix check with a 500 whose detail is "400: Only PDF files are allowed", and the client shows that text and keeps the file |
| EndToEnd.ClientShowsError | frontend/src/components/ChatInterface.js:34-40 | an `HTTPException` with a non-empty detail reaches the conversation as the error turn `Error: <detail>` |
| EndToEnd.ClientShowsAnswer | frontend/src/components/ChatInterface.js:31-40 | a 2xx backend reply becomes the bot turn holding its `answer`, unless its body is null, which ends as the error turn `Error: Failed to get response` |
| EndToEnd.AskWithoutStore | backend/main.py:91-92 | a question sent before any upload ends as the client error turn `Error: No database loaded. Please upload files first.` |
| EndToEnd.BackendAnswersRequest | backend/main.py:96-108 | for a client question with a loaded store, the backend searches with the client's topK, its prompt carries the question as sent, and success returns the answer |
| EndToEnd.AskWithStore | frontend/src/components/ChatInterface.js:31-33 | end to end, the prompt carries the trimmed question, the search uses the client's topK, and a successful answer becomes the bot turn |
| EndToEnd.OnlyAuthInstanceSendsToken | frontend/src/services/auth.js:13-19 | both instances send the same login request, but only the auth instance attaches the stored token |

Breakdowns of the longer `states` cells:

- **BackendMain.UploadFiles**
  - Settings that are not a JSON object, or a failing constructor, crash with the manager unchanged.
  - Otherwise the manager is replaced before any file check.
  - A non-.pdf name gives a 500 whose detail is "400: Only PDF files are allowed", and nothing is ingested.
  - Otherwise every file is ingested without overwrite: a failure becomes a 500 with its text, and success returns the count message and files_processed.
  - The reply is a bare crash iff the settings or the constructor failed; every well-formed upload gets exactly one of the replies above.
- **StreamlitApp.SafeDeleteDatabase**
  - At most `max_retries` attempts are made, and every attempt but the last met a PermissionError.
  - A missing directory or a completed removal succeeds, with its message.
  - Any other error fails at once with "Unexpected error".
  - A PermissionError on the last allowed attempt fails with the lock message.
  - "Failed after maximum retries" occurs iff `max_retries <= 0`; with `max_retries > 0` at least one attempt is made.
  - The result is the one `StreamlitApp.DeleteFrom` defines, so it is fixed by the attempts' outcomes.
- **StreamlitApp.AskQuestion**
  - A blank query after `strip()` changes nothing.
  - Otherwise the unstripped query is appended first, and answered with the sidebar's top_k and model.
  - Only a successful answer adds an assistant turn; any exception shows "❌ Query failed" instead.
- **EndToEnd.ClientSettingsConfigureManager**
  - A manager built from a client upload takes all four values from the client settings.
  - The client settings keep every key under any updates, so the backend defaults never apply.
  - An untouched persistDir arrives as chroma_kb_db.

### Behaviour worth noting

- A drop leaves the previous upload status on screen: `OnDrop` does not touch `status`.
- Submitting an empty batch, or a blank question, returns at once without any message.
- `handleUpload` has no guard against re-entry; only the button is disabled (`StartIgnoresUploading`). `handleSubmit` does have one (`NoSecondQuestionInFlight`).
- The axios instance used by the upload and chat workflows attaches no token. Only the auth service's instance does (`OnlyAuthInstanceSendsToken`).
- Of the client's authentication, only the auth service's requests and its request interceptor are modelled (`AuthService`); the login and register components are left out.
- `ApiService.RegisterRequest` sends no username, unlike `AuthService.RegisterUser`.
- A 2xx reply whose body is null makes the plain property reads `response.message` and `response.answer` throw, and the workflows then take their `catch` branch (`FinishUpload`, `FinishAsk`).

### Timing quirks modelled as the code has them

- Files dropped while an upload is in flight are lost when that upload succeeds, because the batch is then set to `[]`.
- A chat cleared while an answer is awaited still receives the bot turn.

## Left out

- Rendering, styling, icons, scrolling and the markup around every message: presentation only.
- The Login, Register, OAuth, Header, theme and settings-panel components, backend/auth.py, backend/models.py, OAuth configuration and backend/vector_store.py. They are outside the modelled core; the vector store enters only as an oracle.
- src/streamlit_app.py: a superseded copy of streamlit_app.py.
- The backend's `/health` endpoint (backend/main.py:27-29): it returns a constant body and touches no state; the client's call to it is modelled (`ApiService.GetHealth`).
- The Streamlit ingestion tab (streamlit_app.py:261-321): outside the modelled core. It differs from the backend upload: it passes the user's Overwrite checkbox to ingestion, its handler checks no names (the only `.pdf` filter is the uploader's `type=["pdf"]`, streamlit_app.py:265-268) and it does not rebuild the manager.
- The Streamlit database-size panel (streamlit_app.py:418-440): it reports floating-point sizes only.
- Temporary files, their cleanup and cleanup failures, `gc.collect()`, `time.sleep` and `st.rerun()` timing. These are I/O; a rerun is taken to end the run.
- The `chmod` retry inside `rmtree`'s error handler. It is part of what one deletion attempt meets, which is an oracle.
- The `st.warning` branch for an exception while releasing the manager (streamlit_app.py:113-114). None of the three statements in the `try` (streamlit_app.py:107-112) raises an `Exception` in normal operation: assigning `None`, `gc.collect()` and `time.sleep(0.5)`.
- The temperature argument 0.0: a float passed through unchanged.
- Non-integer JSON numbers and floats in the settings: `Value.Num` holds integers only.
- FastAPI request validation (422 replies with list-valued `detail`) and non-string details. Every detail is modelled as a string.
- JSON serialization and multipart encoding, including the browser writing a FormData request's `Content-Type` itself, with the part boundary, in place of the configured one. They are assumed to round-trip the values the client sends.
- Python `str()` of a dict: rendered as its type name only (`BackendMain.PyStr`).
- Common.Field: properties a prototype supplies (`"abc"?.length` is 3) are not modelled; the client reads only `detail`, `message` and `answer`, which no prototype of a JSON value supplies.
- BackendMain.HttpExceptionText: `str()` of an `HTTPException` is taken to be `<status>: <detail>`, as recent Starlette versions render it; the format depends on the Starlette version, so "400: Only PDF files are allowed" rests on that assumption.
- StreamlitApp.RefreshManager: the "Settings updated!" notice follows the corrected condition (`SettingsNotice`), not the condition as written on streamlit_app.py:238, so on the very first run the model shows no notice where the code shows one; `SettingsNoticeAsWritten` and `FirstRunNoticeAsWritten` model the code as written (see Findings).
- CORS headers: whether the browser hands the client a crash's 500 response or a response-less network error is not modelled. Either way the client sees no `detail`.
- `EndToEnd.ToAxios`: axios's error message text is modelled for status errors only; the workflows never read it.
- `ApiService.Intercept`: the console output is modelled as the failure kind logged, not as its text.
- The base-URL choice is modelled (`Http.BaseUrl`), but requests carry only their path; the host they go to is not part of a request value.

## Findings

| source | as written | input that shows it | evidently intended | confidence | as-written member | corrected member |
|---|---|---|---|---|---|---|
| streamlit_app.py:237-239 | `st.session_state.last_settings` is assigned the current settings on line 237 and then tested `is not None` on line 238, so the test is always true | the very first run, with `last_settings` still `None`: the manager is built and "✓ Settings updated!" is shown although nothing was updated | show the notice only when an earlier build's settings were replaced, i.e. test the value `last_settings` held before the assignment | not executed | StreamlitApp.SettingsNoticeAsWritten (shown by StreamlitApp.FirstRunNoticeAsWritten) | StreamlitApp.SettingsNotice (used by StreamlitApp.RefreshManager; proved by StreamlitApp.FirstRunNoticeAsWritten and StreamlitApp.NoticeAgreesAfterFirstBuild) |

=== FILE: api_service.dfy ===
/**
 The axios instance of frontend/src/services/api.js, through which the upload
 and question workflows talk to the backend. It has a response interceptor
 that classifies and logs failures, and NO request interceptor: none of its
 requests carries an `Authorization` header, whatever token is stored.
 */
module ApiService {
  import opened Common
  import opened Http

  /** The three shapes of failure the response interceptor tells apart. */
  datatype ErrorKind =
    | ServerResponded   // the server answered with an error status
    | NoResponse        // the request was sent, nothing came back
    | SetupFailed       // the request could not be set up

  /** The branch of the response interceptor's error handler taken for `e`:
      exactly one kind applies to every error. */
  function Classify(e: AxiosError): (k: ErrorKind)
    ensures k == ServerResponded <==> e.response.Some?
    ensures k == NoResponse <==> e.response.None? && e.requestSent
    ensures k == SetupFailed <==> e.response.None? && !e.requestSent
  {
    if e.response.Some? then ServerResponded
    else if e.requestSent then NoResponse
    else SetupFailed
  }

  /** The interceptor's effect on a settled call: what the caller receives,
      and which kind of failure was logged. */
  datatype Intercepted = Intercepted(outcome: Reply, logged: Option<ErrorKind>)

  /** The response interceptor: responses pass through, and every failure is
      logged under its kind and rejected again unchanged, so a failure never
      becomes a success nor a different error. */
  function Intercept(reply: Reply): (r: Intercepted)
    ensures r.outcome == reply
    ensures r.logged.Some? <==> reply.Failure?
    ensures reply.Failure? ==> r.logged == Some(Classify(reply.error))
  {
    match reply
    case Success(_) => Intercepted(reply, None)
    case Failure(e) => Intercepted(reply, Some(Classify(e)))
  }

  /** An awaited call of this instance that returns `response.data`. */
  function Await(reply: Reply): (r: Result<Value, AxiosError>)
    ensures reply.Success? <==> r.Success?
    ensures reply.Success? ==> r.value == reply.value.data
    ensures reply.Failure? ==> r.error == reply.error
  {
    match Intercept(reply).outcome
    case Success(resp) => Success(resp.data)
    case Failure(e) => Failure(e)
  }

  /** The only message `getHealth` ever fails with. */
  function HealthFailureMessage(): string {
    "Backend server is not responding. Make sure it's running on port 8000."
  }

  /** GET /health. */
  function HealthRequest(): (r: Request)
    ensures r.verb == Get && r.path == "/health" && r.body == NoBody
    ensures "Authorization" !in r.headers
  {
    Request(Get, "/health", JsonHeaders(), NoBody, None)
  }

  /** `getHealth()`: the health body on success; any failure, whatever its
      kind, becomes the single fixed error message. */
  function GetHealth(reply: Reply): (r: Result<Value, string>)
    ensures reply.Success? <==> r.Success?
    ensures reply.Success? ==> r.value == reply.value.data
    ensures reply.Failure? ==> r.error == HealthFailureMessage()
  {
    match Await(reply)
    case Success(data) => Success(data)
    case Failure(_) => Failure(HealthFailureMessage())
  }

  /** `getStatus()`: GET /status. */
  function StatusRequest(): (r: Request)
    ensures r.verb == Get && r.path == "/status" && r.body == NoBody
    ensures "Authorization" !in r.headers
  {
    Request(Get, "/status", JsonHeaders(), NoBody, None)
  }

  /** `uploadFiles(formData)`: a multipart POST to /upload carrying the form
      as given, with a 60000 ms timeout; the only call with a timeout. */
  function UploadRequest(form: seq<Part>): (r: Request)
    ensures r.verb == Post && r.path == "/upload"
    ensures r.body == FormBody(form)
    ensures r.headers == map["Content-Type" := "multipart/form-data"]
    ensures r.timeoutMs == Some(60000)
  {
    Request(Post, "/upload", JsonHeaders()["Content-Type" := "multipart/form-data"], FormBody(form), Some(60000))
  }

  /** `askQuestion(question, settings)`: POST /ask with exactly the fields
      `question` and `settings`. */
  function AskRequest(question: string, settings: map<string, Value>): (r: Request)
    ensures r.verb == Post && r.path == "/ask"
    ensures r.body.JsonBody? && r.body.value.Obj?
    ensures r.body.value.fields.Keys == {"question", "settings"}
    ensures r.body.value.fields["question"] == Str(question)
    ensures r.body.value.fields["settings"] == Obj(settings)
    ensures "Authorization" !in r.headers && r.timeoutMs.None?
  {
    Request(Post, "/ask", JsonHeaders(),
            JsonBody(Obj(map["question" := Str(question), "settings" := Obj(settings)])), None)
  }

  /** `clearDatabase()`: DELETE /clear-database. */
  function ClearDatabaseRequest(): (r: Request)
    ensures r.verb == Delete && r.path == "/clear-database" && r.body == NoBody
    ensures "Authorization" !in r.headers
  {
    Request(Delete, "/clear-database", JsonHeaders(), NoBody, None)
  }

  /** This module's `registerUser(email, password)`: unlike the one of the
      auth service it sends no username. */
  function RegisterRequest(email: string, password: string): (r: Request)
    ensures r.verb == Post && r.path == "/register"
    ensures r.body == JsonBody(Obj(map["email" := Str(email), "password" := Str(password)]))
    ensures "Authorization" !in r.headers
  {
    Request(Post, "/register", JsonHeaders(),
            JsonBody(Obj(map["email" := Str(email), "password" := Str(password)])), None)
  }

  /** This module's `loginUser(email, password)`. */
  function LoginRequest(email: string, password: string): (r: Request)
    ensures r.verb == Post && r.path == "/login"
    ensures r.body == JsonBody(Obj(map["email" := Str(email), "password" := Str(password)]))
    ensures "Authorization" !in r.headers
  {
    Request(Post, "/login", JsonHeaders(),
            JsonBody(Obj(map["email" := Str(email), "password" := Str(password)])), None)
  }
}

=== FILE: auth_service.dfy ===
/**
 The axios instance of frontend/src/services/auth.js. It is the only instance
 with a request interceptor: a stored, non-empty token is attached as an
 OAuth 2.0 bearer credential in the `Authorization` request header, the
 method of section 2.1 of RFC 6750. The stored token is what
 `localStorage.getItem('token')` returns: `null` (None) or a string.
 */
module AuthService {
  import opened Common
  import opened Http

  /** JavaScript truthiness of the stored token: present and non-empty. */
  predicate TokenPresent(stored: Option<string>) {
    stored.Some? && stored.value != ""
  }

  /** The `credentials` form of section 2.1 of RFC 6750 for `token`. */
  function BearerCredentials(token: string): string {
    "Bearer " + token
  }

  /** The request interceptor: with a truthy token the config gains
      `Authorization: Bearer <token>` (replacing any earlier value of that
      header); without one the config passes through untouched. Nothing but
      that header is ever changed. */
  function Intercept(config: Request, stored: Option<string>): (r: Request)
    ensures TokenPresent(stored) ==>
      "Authorization" in r.headers && r.headers["Authorization"] == BearerCredentials(stored.value)
    ensures !TokenPresent(stored) ==> r == config
    ensures r.verb == config.verb && r.path == config.path
      && r.body == config.body && r.timeoutMs == config.timeoutMs
    ensures r.headers.Keys == config.headers.Keys + (if TokenPresent(stored) then {"Authorization"} else {})
    ensures forall h :: h in config.headers && h != "Authorization" ==> r.headers[h] == config.headers[h]
  {
    if TokenPresent(stored) then
      config.(headers := config.headers["Authorization" := BearerCredentials(stored.value)])
    else
      config
  }

  /** Reads a bearer token back out of an `Authorization` header value:
      the text after the `Bearer` scheme and one space, when non-empty. */
  function ParseBearer(header: string): (t: Option<string>)
    ensures t.Some? ==> BearerCredentials(t.value) == header && t.value != ""
  {
    if |header| > 7 && header[..7] == "Bearer " then Some(header[7..]) else None
  }

  /** The header the interceptor writes carries exactly the stored token. */
  lemma BearerRoundTrip(config: Request, token: string)
    requires token != ""
    ensures ParseBearer(Intercept(config, Some(token)).headers["Authorization"]) == Some(token)
  {
    assert (BearerCredentials(token))[..7] == "Bearer ";
    assert (BearerCredentials(token))[7..] == token;
  }

  /** A request built by this module carries an `Authorization` header
      exactly when a truthy token is stored. */
  lemma AuthorizationIffToken(config: Request, stored: Option<string>)
    requires "Authorization" !in config.headers
    ensures "Authorization" in Intercept(config, stored).headers <==> TokenPresent(stored)
  {
  }

  /** An awaited call of this instance: the request as it leaves the
      interceptor, and `response.data` or the rejection. */
  datatype Exchange = Exchange(sent: Request, result: Result<Value, AxiosError>)

  function Send(config: Request, stored: Option<string>, reply: Reply): (x: Exchange)
    ensures x.sent == Intercept(config, stored)
    ensures reply.Success? <==> x.result.Success?
    ensures reply.Success? ==> x.result.value == reply.value.data
    ensures reply.Failure? ==> x.result.error == reply.error
  {
    var result := match reply
      case Success(resp) => Success(resp.data)
      case Failure(e) => Failure(e);
    Exchange(Intercept(config, stored), result)
  }

  /** `loginUser(email, password)`: POST /login with exactly the fields
      `email` and `password`, returning the response body. */
  function LoginUser(email: string, password: string, stored: Option<string>, reply: Reply): (x: Exchange)
    ensures x.sent.verb == Post && x.sent.path == "/login"
    ensures x.sent.body.JsonBody? && x.sent.body.value.Obj?
    ensures x.sent.body.value.fields.Keys == {"email", "password"}
    ensures x.sent.body.value.fields["email"] == Str(email)
    ensures x.sent.body.value.fields["password"] == Str(password)
    ensures reply.Success? ==> x.result == Success(reply.value.data)
    ensures reply.Failure? ==> x.result == Failure(reply.error)
  {
    var body := Obj(map["email" := Str(email), "password" := Str(password)]);
    Send(Request(Post, "/login", JsonHeaders(), JsonBody(body), None), stored, reply)
  }

  /** `registerUser(email, username, password)`: POST /register with exactly
      the fields `email`, `username` and `password`. */
  function RegisterUser(email: string, username: string, password: string,
                        stored: Option<string>, reply: Reply): (x: Exchange)
    ensures x.sent.verb == Post && x.sent.path == "/register"
    ensures x.sent.body.JsonBody? && x.sent.body.value.Obj?
    ensures x.sent.body.value.fields.Keys == {"email", "username", "password"}
    ensures x.sent.body.value.fields["email"] == Str(email)
    ensures x.sent.body.value.fields["username"] == Str(username)
    ensures x.sent.body.value.fields["password"] == Str(password)
    ensures reply.Success? ==> x.result == Success(reply.value.data)
    ensures reply.Failure? ==> x.result == Failure(reply.error)
  {
    var body := Obj(map["email" := Str(email), "username" := Str(username), "password" := Str(password)]);
    Send(Request(Post, "/register", JsonHeaders(), JsonBody(body), None), stored, reply)
  }

  /** `getCurrentUser()`: GET /me without a body; with a stored token it is
      the one request that identifies the user by the bearer credential. */
  function GetCurrentUser(stored: Option<string>, reply: Reply): (x: Exchange)
    ensures x.sent.verb == Get && x.sent.path == "/me" && x.sent.body == NoBody
    ensures TokenPresent(stored) ==>
      "Authorization" in x.sent.headers && x.sent.headers["Authorization"] == BearerCredentials(stored.value)
    ensures !TokenPresent(stored) ==> "Authorization" !in x.sent.headers
    ensures reply.Success? ==> x.result == Success(reply.value.data)
    ensures reply.Failure? ==> x.result == Failure(reply.error)
  {
    Send(Request(Get, "/me", JsonHeaders(), NoBody, None), stored, reply)
  }
}

=== FILE: backend_main.dfy ===
/**
 The decision logic of the two FastAPI endpoints of backend/main.py that the
 React client calls, `/upload` and `/ask`, around the module-level `manager`
 (None until an upload builds one). Temporary files, the vector store and the
 language model are oracles: whether the `VectorStoreManager` constructor
 returned, and the result (or exception text) of ingestion, loading, search
 and generation, are parameters.
 */
module BackendMain {
  import opened Common
  import Chatbot

  /** The arguments a `VectorStoreManager` was constructed with. */
  datatype ManagerConfig = ManagerConfig(
    persistDirectory: Value,
    embeddingModel: Value,
    chunkSize: Value,
    chunkOverlap: Value)

  /** An uploaded file as the handler sees it; its bytes are not modelled. */
  datatype UploadFile = UploadFile(filename: string)

  /** The `settings` form field after `json.loads`: a JSON value, or text
      that is not JSON. */
  datatype SettingsField = Parsed(value: Value) | NotJson

  /** What the client receives. `HttpError` is an `HTTPException` raised out
      of the handler; `Crash` is an exception the handler does not turn into
      an `HTTPException`, which the server answers with a bare 500 and no
      `detail`. */
  datatype Reply = Ok(body: Value) | HttpError(status: int, detail: string) | Crash

  /** The ingestion call: with which manager, how many temporary files, and
      whether the store is overwritten. */
  datatype IngestCall = IngestCall(config: ManagerConfig, fileCount: nat, overwrite: bool)

  datatype UploadOutcome = UploadOutcome(manager: Option<ManagerConfig>, ingest: Option<IngestCall>, reply: Reply)

  /** The manager arguments read from the upload settings, each defaulted
      when its key is missing. */
  function ManagerConfigFrom(d: map<string, Value>): (c: ManagerConfig)
    ensures "persistDir" !in d ==> c.persistDirectory == Str("chroma_hr_db")
    ensures "embeddingModel" !in d ==> c.embeddingModel == Str("nomic-embed-text")
    ensures "chunkSize" !in d ==> c.chunkSize == Num(1000)
    ensures "chunkOverlap" !in d ==> c.chunkOverlap == Num(150)
    ensures "persistDir" in d ==> c.persistDirectory == d["persistDir"]
    ensures "embeddingModel" in d ==> c.embeddingModel == d["embeddingModel"]
    ensures "chunkSize" in d ==> c.chunkSize == d["chunkSize"]
    ensures "chunkOverlap" in d ==> c.chunkOverlap == d["chunkOverlap"]
  {
    ManagerConfig(
      Get(d, "persistDir", Str("chroma_hr_db")),
      Get(d, "embeddingModel", Str("nomic-embed-text")),
      Get(d, "chunkSize", Num(1000)),
      Get(d, "chunkOverlap", Num(150)))
  }

  /** `str(e)` of an `HTTPException`, as Starlette renders it:
      `"<status>: <detail>"`. */
  function HttpExceptionText(status: nat, detail: string): string {
    NatToString(status) + ": " + detail
  }

  function OnlyPdfDetail(): string {
    "Only PDF files are allowed"
  }

  /** The position of the first file whose name does not end in `.pdf`
      (case-sensitively), the one the loop raises on. */
  function FirstNonPdf(files: seq<UploadFile>): (r: Option<nat>)
    ensures r.None? <==> forall i :: 0 <= i < |files| ==> EndsWith(files[i].filename, ".pdf")
    ensures r.Some? ==> r.value < |files| && !EndsWith(files[r.value].filename, ".pdf")
    ensures r.Some? ==> forall i :: 0 <= i < r.value ==> EndsWith(files[i].filename, ".pdf")
    decreases |files|
  {
    if |files| == 0 then None
    else if !EndsWith(files[0].filename, ".pdf") then Some(0)
    else
      match FirstNonPdf(files[1..])
      case None => None
      case Some(i) => Some(i + 1)
  }

  /** The success message for `n` files. */
  function IngestedMessage(n: nat): string {
    "Successfully ingested " + NatToString(n) + " files into Chroma database"
  }

  /** `upload_files(files, settings)`.
      - A settings field that is not a JSON object, or a manager constructor
        that raises, fails before `temp_paths` is bound; the handler's cleanup
        loop then raises again, so the reply is a bare crash and the manager
        is left as it was.
      - Otherwise the manager is replaced BEFORE any file is looked at, so it
        stays replaced whatever happens next.
      - A file name not ending in `.pdf` raises a 400 inside the `try`,
        which the handler re-raises as a 500 whose detail is the 400's text.
      - Otherwise ingestion runs on every file with `overwrite=False`; its
        exception becomes a 500, its success the count message. */
  function UploadFiles(manager: Option<ManagerConfig>, files: seq<UploadFile>, settings: SettingsField,
                       constructed: bool, ingest: Result<(), string>): (r: UploadOutcome)
    ensures r.reply.Crash? <==> !(settings.Parsed? && settings.value.Obj? && constructed)
    ensures !(settings.Parsed? && settings.value.Obj? && constructed) ==>
      r.manager == manager && r.ingest.None?
    ensures settings.Parsed? && settings.value.Obj? && constructed && FirstNonPdf(files).Some? ==>
      r.reply == HttpError(500, HttpExceptionText(400, OnlyPdfDetail())) && r.ingest.None?
    ensures settings.Parsed? && settings.value.Obj? && constructed && FirstNonPdf(files).None? ==>
      && r.ingest == Some(IngestCall(ManagerConfigFrom(settings.value.fields), |files|, false))
      && (r.reply.Ok? <==> ingest.Success?)
      && (ingest.Failure? ==> r.reply == HttpError(500, ingest.error))
    ensures settings.Parsed? && settings.value.Obj? && constructed ==>
      r.manager == Some(ManagerConfigFrom(settings.value.fields))
    ensures r.reply.HttpError? ==> r.reply.status == 500
    ensures r.reply.HttpError? && FirstNonPdf(files).Some? ==>
      r.reply.detail == HttpExceptionText(400, OnlyPdfDetail()) && r.ingest.None?
    ensures r.reply.HttpError? && FirstNonPdf(files).None? ==>
      ingest.Failure? && r.reply.detail == ingest.error && r.ingest.Some?
    ensures r.ingest.Some? ==> FirstNonPdf(files).None? && r.manager == Some(r.ingest.value.config)
    ensures r.ingest.Some? ==> r.ingest.value.fileCount == |files| && !r.ingest.value.overwrite
    ensures r.reply.Ok? ==> r.ingest.Some? && ingest.Success?
    ensures r.reply.Ok? ==>
      r.reply.body == Obj(map["message" := Str(IngestedMessage(|files|)), "files_processed" := Num(|files|)])
  {
    if !(settings.Parsed? && settings.value.Obj? && constructed) then
      UploadOutcome(manager, None, Crash)
    else
      var config := ManagerConfigFrom(settings.value.fields);
      if FirstNonPdf(files).Some? then
        UploadOutcome(Some(config), None, HttpError(500, HttpExceptionText(400, OnlyPdfDetail())))
      else
        var call := IngestCall(config, |files|, false);
        match ingest
        case Failure(msg) => UploadOutcome(Some(config), Some(call), HttpError(500, msg))
        case Success(_) =>
          UploadOutcome(Some(config), Some(call),
            Ok(Obj(map["message" := Str(IngestedMessage(|files|)), "files_processed" := Num(|files|)])))
  }

  function NoDatabaseDetail(): string {
    "No database loaded. Please upload files first."
  }

  /** The Python type name `'…' object has no attribute 'get'` names. */
  function PyTypeName(v: Value): string {
    match v
    case Undefined => "NoneType"
    case Null => "NoneType"
    case Bool(_) => "bool"
    case Num(_) => "int"
    case Str(_) => "str"
    case Obj(_) => "dict"
  }

  /** Python `str(v)` of a scalar; a dict is rendered by its type name
      only. */
  function PyStr(v: Value): string {
    match v
    case Undefined => "None"
    case Null => "None"
    case Bool(b) => if b then "True" else "False"
    case Num(n) => IntToString(n)
    case Str(s) => s
    case Obj(_) => "dict"
  }

  datatype AskOutcome = AskOutcome(answering: Option<Chatbot.Answering>, reply: Reply)

  /** The part of `/ask` after the store has loaded: the settings are read
      (`topK` defaults to 4, `llmModel` to "llama3"), the question is
      answered and echoed back; a settings value that is not an object
      raises on `.get`, and that exception or the answering's becomes a
      500. */
  function AnswerWithSettings(question: Value, settings: Value, search: Result<seq<Chatbot.Doc>, string>,
                              llm: Result<string, string>): (r: AskOutcome)
    ensures !settings.Obj? ==> r.answering.None? && r.reply.HttpError? && r.reply.status == 500
    ensures settings.Obj? ==>
      r.answering == Some(Chatbot.AnswerQuestion(PyStr(question), Get(settings.fields, "topK", Num(4)),
                                                 Get(settings.fields, "llmModel", Str("llama3")), search, llm))
    ensures r.answering.Some? && r.answering.value.answer.Failure? ==>
      r.reply == HttpError(500, r.answering.value.answer.error)
    ensures r.answering.Some? && "topK" !in settings.fields ==> r.answering.value.searchK == Num(4)
    ensures r.answering.Some? && "topK" in settings.fields ==> r.answering.value.searchK == settings.fields["topK"]
    ensures r.answering.Some? && r.answering.value.llm.Some? && "llmModel" !in settings.fields ==>
      r.answering.value.llm.value.model == Str("llama3")
    ensures r.answering.Some? && r.answering.value.llm.Some? && "llmModel" in settings.fields ==>
      r.answering.value.llm.value.model == settings.fields["llmModel"]
    ensures r.reply.HttpError? ==> r.reply.status == 500
    ensures r.reply.Ok? <==> r.answering.Some? && r.answering.value.answer.Success?
    ensures r.reply.Ok? ==>
      r.reply.body == Obj(map["answer" := Str(r.answering.value.answer.value), "question" := question])
  {
    if !settings.Obj? then
      AskOutcome(None, HttpError(500, "'" + PyTypeName(settings) + "' object has no attribute 'get'"))
    else
      var a := Chatbot.AnswerQuestion(PyStr(question), Get(settings.fields, "topK", Num(4)),
                                      Get(settings.fields, "llmModel", Str("llama3")), search, llm);
      match a.answer
      case Failure(msg) => AskOutcome(Some(a), HttpError(500, msg))
      case Success(text) => AskOutcome(Some(a), Ok(Obj(map["answer" := Str(text), "question" := question])))
  }

  /** `ask_question_endpoint(request)`: without a manager, 400 before
      anything else; otherwise the store is loaded (its exception becomes a
      500) and the question, read with a `null` default, is answered with the
      request's settings, which default to an empty object. */
  function AskQuestion(manager: Option<ManagerConfig>, request: map<string, Value>,
                       load: Result<(), string>, search: Result<seq<Chatbot.Doc>, string>,
                       llm: Result<string, string>): (r: AskOutcome)
    ensures manager.None? <==> r.reply == HttpError(400, NoDatabaseDetail())
    ensures manager.None? || load.Failure? ==> r.answering.None?
    ensures manager.Some? && load.Failure? ==> r.reply == HttpError(500, load.error)
    ensures manager.Some? && load.Success? ==>
      r == AnswerWithSettings(Get(request, "question", Null), Get(request, "settings", Obj(map[])), search, llm)
  {
    if manager.None? then AskOutcome(None, HttpError(400, NoDatabaseDetail()))
    else
      match load
      case Failure(msg) => AskOutcome(None, HttpError(500, msg))
      case Success(_) =>
        AnswerWithSettings(Get(request, "question", Null), Get(request, "settings", Obj(map[])), search, llm)
  }

  /** The manager is replaced before the file check, so an upload rejected
      for a non-PDF name still leaves a manager behind, and a later question
      gets past the "no database" guard although nothing was ingested. */
  lemma RejectedUploadInstallsManager(manager: Option<ManagerConfig>, files: seq<UploadFile>,
                                      settings: map<string, Value>, ingest: Result<(), string>,
                                      request: map<string, Value>, load: Result<(), string>,
                                      search: Result<seq<Chatbot.Doc>, string>, llm: Result<string, string>)
    requires FirstNonPdf(files).Some?
    ensures var up := UploadFiles(manager, files, Parsed(Obj(settings)), true, ingest);
      && up.reply.HttpError? && up.ingest.None?
      && up.manager == Some(ManagerConfigFrom(settings))
      && AskQuestion(up.manager, request, load, search, llm).reply != HttpError(400, NoDatabaseDetail())
  {
  }
}

=== FILE: chat_interface.dfy ===
/**
 The question workflow of frontend/src/components/ChatInterface.js: the text
 being typed, the conversation and a `loading` flag. As in the upload
 workflow, the awaited `askQuestion` call is split into a start event that
 sends the request and a completion event that receives the oracle's answer
 and appends to the conversation current at that moment.
 */
module ChatInterface {
  import opened Common
  import opened Http
  import ApiService

  datatype Role = User | Bot

  /** One turn of the conversation. A turn's `content` is whatever the
      component stores: the trimmed question, the `answer` field of the
      backend's response, or the error text. */
  datatype Message = Message(role: Role, content: Value, isError: bool)

  datatype ChatState = ChatState(query: string, messages: seq<Message>, loading: bool)

  function Initial(): ChatState {
    ChatState("", [], false)
  }

  /** The bot turn appended when the question fails. */
  function ErrorTurn(e: AxiosError): Message {
    Message(Bot, Str("Error: " + JsString(Or(Detail(e), Str("Failed to get response")))), true)
  }

  /** Typing into the input. */
  function EditQuery(s: ChatState, text: string): (r: ChatState)
    ensures r.query == text && r.messages == s.messages && r.loading == s.loading
  {
    s.(query := text)
  }

  /** The Ask button: disabled for a blank question or while loading. */
  predicate AskButtonEnabled(s: ChatState) {
    JsTrim(s.query) != "" && !s.loading
  }

  /** The start of `handleSubmit`. A blank (after trimming) question, or one
      submitted while a previous answer is awaited, changes nothing and sends
      nothing. Otherwise the trimmed question is appended as a user turn
      before anything is sent, the input is cleared, the flag is raised, and
      the trimmed question goes to the backend with the current settings. */
  function Submit(s: ChatState, settings: map<string, Value>): (r: Step<ChatState>)
    ensures r.sent.None? <==> JsTrim(s.query) == "" || s.loading
    ensures r.sent.None? ==> r.next == s
    ensures r.sent.Some? ==> r.next.messages == s.messages + [Message(User, Str(JsTrim(s.query)), false)]
    ensures r.sent.Some? ==> r.next.query == "" && r.next.loading
    ensures r.sent.Some? ==> r.sent.value == ApiService.AskRequest(JsTrim(s.query), settings)
  {
    if JsTrim(s.query) == "" || s.loading then Step(s, None)
    else
      var question := JsTrim(s.query);
      Step(ChatState("", s.messages + [Message(User, Str(question), false)], true),
           Some(ApiService.AskRequest(question, settings)))
  }

  /** The completion of `handleSubmit` with the awaited result of
      `askQuestion`: exactly one bot turn is appended, the backend's `answer`
      on success, an error turn with the backend's `detail` (or 'Failed to get
      response') on failure; earlier turns are untouched and the flag drops.
      A body that is `null` or `undefined` makes `response.answer` throw
      inside the `try`, so the `catch` block appends the error turn. */
  function FinishAsk(s: ChatState, result: Result<Value, AxiosError>): (r: ChatState)
    ensures |r.messages| == |s.messages| + 1 && r.messages[..|s.messages|] == s.messages
    ensures r.messages[|s.messages|].role == Bot
    ensures !r.messages[|s.messages|].isError <==> result.Success? && !AccessThrows(result.value)
    ensures result.Success? && !AccessThrows(result.value) ==>
      r.messages[|s.messages|] == Message(Bot, Field(result.value, "answer"), false)
    ensures result.Success? && AccessThrows(result.value) ==>
      r.messages[|s.messages|].content == Str("Error: Failed to get response")
    ensures result.Failure? && Truthy(Detail(result.error)) ==>
      r.messages[|s.messages|].content == Str("Error: " + JsString(Detail(result.error)))
    ensures result.Failure? && !Truthy(Detail(result.error)) ==>
      r.messages[|s.messages|].content == Str("Error: Failed to get response")
    ensures !r.loading && r.query == s.query
  {
    assert "Error: " + "Failed to get response" == "Error: Failed to get response";
    match result
    case Success(data) =>
      if AccessThrows(data) then s.(messages := s.messages + [ErrorTurn(AccessError(data, "answer"))], loading := false)
      else s.(messages := s.messages + [Message(Bot, Field(data, "answer"), false)], loading := false)
    case Failure(e) => s.(messages := s.messages + [ErrorTurn(e)], loading := false)
  }

  /** `clearChat()`: the conversation is emptied, whatever it held; the input
      and the flag are left alone. */
  function ClearChat(s: ChatState): (r: ChatState)
    ensures r.messages == [] && r.query == s.query && r.loading == s.loading
  {
    s.(messages := [])
  }

  datatype Event =
    | Type(text: string)
    | Ask(settings: map<string, Value>)
    | Answered(reply: Reply)
    | Clear

  function Handle(s: ChatState, e: Event): (r: Step<ChatState>)
    ensures e.Clear? ==> r.next.messages == []
    ensures !e.Clear? ==> s.messages <= r.next.messages
  {
    match e
    case Type(text) => Step(EditQuery(s, text), None)
    case Ask(settings) => Submit(s, settings)
    case Answered(reply) => Step(FinishAsk(s, ApiService.Await(reply)), None)
    case Clear => Step(ClearChat(s), None)
  }

  function Run(s: ChatState, events: seq<Event>): ChatState
    decreases |events|
  {
    if |events| == 0 then s else Run(Handle(s, events[0]).next, events[1..])
  }

  predicate NoClear(events: seq<Event>) {
    forall i :: 0 <= i < |events| ==> !events[i].Clear?
  }

  /** Between two clears the conversation is append-only: no turn is ever
      changed, removed or reordered. */
  lemma {:induction false} RunAppendOnly(s: ChatState, events: seq<Event>)
    requires NoClear(events)
    ensures s.messages <= Run(s, events).messages
    decreases |events|
  {
    if |events| > 0 {
      var t := Handle(s, events[0]).next;
      assert NoClear(events[1..]) by {
        forall i | 0 <= i < |events[1..]| ensures !events[1..][i].Clear? {
          assert events[1..][i] == events[i + 1];
        }
      }
      RunAppendOnly(t, events[1..]);
    }
  }

  /** An accepted question answered before anything else happens grows the
      conversation by exactly two turns: the user's, then the bot's. */
  lemma AskGrowsByTwo(s: ChatState, settings: map<string, Value>, result: Result<Value, AxiosError>)
    requires JsTrim(s.query) != "" && !s.loading
    ensures var r := FinishAsk(Submit(s, settings).next, result);
      && |r.messages| == |s.messages| + 2
      && r.messages[..|s.messages|] == s.messages
      && r.messages[|s.messages|] == Message(User, Str(JsTrim(s.query)), false)
      && r.messages[|s.messages| + 1].role == Bot
      && !r.loading
  {
  }

  /** The guard of `handleSubmit` is the Ask button's enabling condition:
      a question is sent exactly when the button can be pressed. */
  lemma SubmitGuardIsButton(s: ChatState, settings: map<string, Value>)
    ensures Submit(s, settings).sent.Some? <==> AskButtonEnabled(s)
  {
  }

  /** At most one question is outstanding: while an answer is awaited, a
      second submit sends nothing, whatever has been typed meanwhile. */
  lemma NoSecondQuestionInFlight(s: ChatState, settings: map<string, Value>, text: string,
                                 settings2: map<string, Value>)
    requires Submit(s, settings).sent.Some?
    ensures Submit(EditQuery(Submit(s, settings).next, text), settings2).sent.None?
  {
  }

  /** The text sent is never blank and never starts or ends with
      whitespace. */
  lemma SentQuestionIsTrimmed(s: ChatState, settings: map<string, Value>)
    requires Submit(s, settings).sent.Some?
    ensures var q := JsTrim(s.query);
      q != "" && !IsJsWhitespace(q[0]) && !IsJsWhitespace(q[|q| - 1])
  {
  }
}

=== FILE: chatbot.dfy ===
/**
 Prompt construction and the answering step of backend/chatbot.py. The
 similarity search and the language model are oracles: the documents the
 search returned (or the exception it raised) and the model's reply (or its
 exception) are parameters, and the model records what each was asked.
 */
module Chatbot {
  import opened Common

  /** The fixed instruction that opens every prompt. It is written as short
      phrases whose concatenation is the text, rather than as the two
      literals of the source, because the verifier unfolds a long literal
      character by character in every proof that mentions the prompt. */
  function SystemInstruction(): string {
    "You are an "
    + "internal "
    + "knowledge base "
    + "assistant. "
    + "Answer "
    + "concisely using "
    + "ONLY the "
    + "provided policy "
    + "context. If the "
    + "answer is not "
    + "in the context, "
    + "say you don't "
    + "know and "
    + "suggest "
    + "uploading more "
    + "relevant "
    + "documents."
  }

  /** The last line of every prompt, split into phrases for the same
      reason. */
  function ClosingLine(): string {
    "Answer briefly. "
    + "At the end, "
    + "list sources used."
  }

  function NoDocumentsAnswer(): string {
    "No relevant documents found in the knowledge base."
  }

  function Separator(): string {
    "\n\n---\n\n"
  }

  /** A retrieved chunk: its metadata and its text. */
  datatype Doc = Doc(metadata: map<string, string>, pageContent: string)

  /** The label of the document at 1-based position `i`: its `source`
      metadata, or `doc<i>` when it has none. */
  function SourceLabel(d: Doc, i: nat): (src: string)
    ensures "source" in d.metadata ==> src == d.metadata["source"]
    ensures "source" !in d.metadata ==> src == "doc" + NatToString(i)
  {
    if "source" in d.metadata then d.metadata["source"] else "doc" + NatToString(i)
  }

  /** One context piece: the bracketed label, a newline, the text. */
  function RenderDoc(d: Doc, i: nat): string {
    "[" + SourceLabel(d, i) + "]\n" + d.pageContent
  }

  /** A piece opens with the bracketed label, and the document's text
      follows the label's line. */
  lemma PieceLayout(d: Doc, i: nat)
    ensures InfixAt(d.pageContent, RenderDoc(d, i), |SourceLabel(d, i)| + 3)
    ensures RenderDoc(d, i)[..|SourceLabel(d, i)| + 2] == "[" + SourceLabel(d, i) + "]"
  {
    var head := "[" + SourceLabel(d, i) + "]\n";
    assert RenderDoc(d, i) == head + d.pageContent;
    assert (head + d.pageContent)[|head|..|head| + |d.pageContent|] == d.pageContent;
  }

  /** The pieces of `docs` in retrieval order, the document at position `k`
      numbered `k + 1`. */
  function RenderAll(docs: seq<Doc>): seq<string> {
    seq(|docs|, k requires 0 <= k < |docs| => RenderDoc(docs[k], k + 1))
  }

  /** The context block: the pieces numbered from 1, joined by the
      separator. */
  function Context(docs: seq<Doc>): string {
    Join(RenderAll(docs), Separator())
  }

  function PromptHead(): string {
    SystemInstruction() + "\n\n" + "CONTEXT:\n"
  }

  function PromptTail(question: string): string {
    "\n\n" + "QUESTION:\n" + question + "\n\n" + ClosingLine()
  }

  /** `build_prompt(question, docs)`. */
  function BuildPrompt(question: string, docs: seq<Doc>): string {
    PromptHead() + Context(docs) + PromptTail(question)
  }

  /** The prompt is the instruction head, then the context, then the question
      block with the closing line, each where the lengths of the parts before
      it put it. */
  lemma PromptLayout(question: string, docs: seq<Doc>)
    ensures var p := BuildPrompt(question, docs);
      && |p| == |PromptHead()| + |Context(docs)| + |PromptTail(question)|
      && p[..|PromptHead()|] == PromptHead()
      && p[|PromptHead()|..|PromptHead()| + |Context(docs)|] == Context(docs)
      && p[|p| - |PromptTail(question)|..] == PromptTail(question)
  {
  }

  /** The context block sits right after the instruction head. */
  lemma ContextInPrompt(question: string, docs: seq<Doc>)
    ensures InfixAt(Context(docs), BuildPrompt(question, docs), |PromptHead()|)
  {
    PromptLayout(question, docs);
  }

  /** Within the question block, the question follows the `QUESTION:` line
      and is followed by the closing line. */
  lemma QuestionInTail(question: string)
    ensures |PromptTail(question)| == |"\n\n" + "QUESTION:\n"| + |question| + |"\n\n" + ClosingLine()|
    ensures InfixAt(question, PromptTail(question), |"\n\n" + "QUESTION:\n"|)
  {
    var lead := "\n\n" + "QUESTION:\n";
    assert PromptTail(question) == lead + question + ("\n\n" + ClosingLine());
    InfixOfConcat(question, lead, "\n\n" + ClosingLine());
  }

  /** The question can be read back from the prompt: it sits between the
      `QUESTION:` line and the closing line. */
  lemma QuestionRecoverable(question: string, docs: seq<Doc>)
    ensures var p := BuildPrompt(question, docs);
      var end := |p| - |"\n\n" + ClosingLine()|;
      InfixAt(question, p, end - |question|)
  {
    PromptLayout(question, docs);
    QuestionInTail(question);
    var p := BuildPrompt(question, docs);
    var tail := PromptTail(question);
    assert InfixAt(tail, p, |p| - |tail|);
    InfixTransitive(question, tail, p, |"\n\n" + "QUESTION:\n"|, |p| - |tail|);
  }

  /** The `k`-th rendered document sits in the context block at its join
      offset. */
  lemma PieceInContext(docs: seq<Doc>, k: int)
    requires 0 <= k < |docs|
    ensures InfixAt(RenderDoc(docs[k], k + 1), Context(docs), JoinOffset(RenderAll(docs), Separator(), k))
  {
    var pieces := RenderAll(docs);
    assert pieces[k] == RenderDoc(docs[k], k + 1);
    JoinPieceAt(pieces, Separator(), k);
  }

  /** The context block lists the rendered documents in retrieval order: the
      `k`-th piece sits at its join offset, the separator follows it, and the
      next document's piece begins right after the separator; the last piece
      ends the block. */
  lemma ContextOrder(docs: seq<Doc>, k: int)
    requires 0 <= k < |docs|
    ensures var pieces := RenderAll(docs);
      var off := JoinOffset(pieces, Separator(), k);
      && InfixAt(pieces[k], Context(docs), off)
      && (k + 1 < |docs| ==>
            && InfixAt(Separator(), Context(docs), off + |pieces[k]|)
            && InfixAt(pieces[k + 1], Context(docs), off + |pieces[k]| + |Separator()|))
      && (k + 1 == |docs| ==> |Context(docs)| == off + |pieces[k]|)
  {
    var pieces := RenderAll(docs);
    var sep := Separator();
    JoinPieceAt(pieces, sep, k);
    if k + 1 < |docs| {
      JoinSeparatorAfter(pieces, sep, k);
      JoinPieceAt(pieces, sep, k + 1);
    } else {
      JoinLength(pieces, sep);
    }
  }

  /** The text of the `k`-th retrieved document occurs in the context
      block, after its label line. */
  lemma DocInContext(docs: seq<Doc>, k: int)
    requires 0 <= k < |docs|
    ensures InfixAt(docs[k].pageContent, Context(docs),
                    JoinOffset(RenderAll(docs), Separator(), k) + |SourceLabel(docs[k], k + 1)| + 3)
  {
    PieceLayout(docs[k], k + 1);
    PieceInContext(docs, k);
    InfixTransitive(docs[k].pageContent, RenderDoc(docs[k], k + 1), Context(docs),
                    |SourceLabel(docs[k], k + 1)| + 3, JoinOffset(RenderAll(docs), Separator(), k));
  }

  /** The text of the `k`-th retrieved document occurs in the prompt. */
  lemma DocInPrompt(question: string, docs: seq<Doc>, k: int)
    requires 0 <= k < |docs|
    ensures IsInfix(docs[k].pageContent, BuildPrompt(question, docs))
  {
    DocInContext(docs, k);
    var j :| InfixAt(docs[k].pageContent, Context(docs), j);
    ContextInPrompt(question, docs);
    InfixTransitive(docs[k].pageContent, Context(docs), BuildPrompt(question, docs), j, |PromptHead()|);
  }

  /** The prompt contains the question and the text of every retrieved
      document. */
  lemma PromptMentionsEverything(question: string, docs: seq<Doc>)
    ensures IsInfix(question, BuildPrompt(question, docs))
    ensures forall k :: 0 <= k < |docs| ==> IsInfix(docs[k].pageContent, BuildPrompt(question, docs))
  {
    QuestionRecoverable(question, docs);
    forall k | 0 <= k < |docs|
      ensures IsInfix(docs[k].pageContent, BuildPrompt(question, docs))
    {
      DocInPrompt(question, docs, k);
    }
  }

  /** The model call `answer_question` makes; the temperature is always 0.0
      and is not recorded. */
  datatype LlmCall = LlmCall(model: Value, prompt: string)

  /** What `answer_question` asked of its collaborators and what it
      returned (or raised). */
  datatype Answering = Answering(searchK: Value, llm: Option<LlmCall>, answer: Result<string, string>)

  /** `answer_question(question, chroma_db, top_k, model)`. The search asks
      for exactly `top_k` documents; a failing search propagates its
      exception; an empty retrieval returns the fixed answer without building
      a prompt or calling the model; otherwise the model is asked with the
      prompt and its reply (or exception) is the result. */
  function AnswerQuestion(question: string, topK: Value, model: Value,
                          search: Result<seq<Doc>, string>, llm: Result<string, string>): (r: Answering)
    ensures r.searchK == topK
    ensures r.llm.Some? <==> search.Success? && |search.value| > 0
    ensures search.Failure? ==> r.answer == Failure(search.error)
    ensures search.Success? && |search.value| == 0 ==> r.answer == Success(NoDocumentsAnswer())
    ensures r.llm.Some? ==> r.llm.value == LlmCall(model, BuildPrompt(question, search.value)) && r.answer == llm
  {
    match search
    case Failure(e) => Answering(topK, None, Failure(e))
    case Success(docs) =>
      if |docs| == 0 then Answering(topK, None, Success(NoDocumentsAnswer()))
      else Answering(topK, Some(LlmCall(model, BuildPrompt(question, docs))), llm)
  }
}

=== FILE: common.dfy ===
/**
 Shared vocabulary for the BillyBot model: optional values, success/failure
 results, the dynamically typed values that travel as JSON between the React
 client and the FastAPI backend, and the handful of string operations both
 sides rely on (whitespace trimming, suffix tests, joining, decimal rendering).
 */
module Common {

  datatype Option<+T> = None | Some(value: T)

  /** The outcome of a call into something the model does not see (HTTP, the
      language model, the file system): a payload or an error. */
  datatype Result<+T, +E> = Success(value: T) | Failure(error: E)

  /** A JavaScript / JSON value. `Undefined` only arises on the JavaScript side
      (a missing property); Python's `None` and JSON's `null` are `Null`.
      Numbers are integers: fractional numbers and NaN are not modelled. */
  datatype Value =
    | Undefined
    | Null
    | Bool(b: bool)
    | Num(n: int)
    | Str(s: string)
    | Obj(fields: map<string, Value>)

  /** JavaScript property access through optional chaining: `v?.key`. */
  function Field(v: Value, key: string): (r: Value)
    ensures v.Obj? && key in v.fields ==> r == v.fields[key]
    ensures !(v.Obj? && key in v.fields) ==> r == Undefined
  {
    if v.Obj? && key in v.fields then v.fields[key] else Undefined
  }

  /** JavaScript truthiness. */
  predicate Truthy(v: Value) {
    match v
    case Undefined => false
    case Null => false
    case Bool(b) => b
    case Num(n) => n != 0
    case Str(s) => s != ""
    case Obj(_) => true
  }

  /** JavaScript `a || b`. */
  function Or(a: Value, b: Value): (r: Value)
    ensures Truthy(a) ==> r == a
    ensures !Truthy(a) ==> r == b
  {
    if Truthy(a) then a else b
  }

  /** Python `d.get(key, default)`. */
  function Get(d: map<string, Value>, key: string, default: Value): (r: Value)
    ensures key in d ==> r == d[key]
    ensures key !in d ==> r == default
  {
    if key in d then d[key] else default
  }

  // ---------------------------------------------------------------------
  // Decimal rendering of integers, with its parser as partner.

  function DigitChar(d: nat): (c: char)
    requires d < 10
    ensures '0' <= c <= '9'
    ensures (c as int) - ('0' as int) == d
  {
    "0123456789"[d]
  }

  predicate IsDigit(c: char) {
    '0' <= c <= '9'
  }

  /** Decimal digits of `n`, most significant first, no leading zeros. */
  function NatToString(n: nat): (r: string)
    ensures |r| >= 1
    ensures forall i :: 0 <= i < |r| ==> IsDigit(r[i])
    ensures |r| > 1 ==> r[0] != '0'
  {
    if n < 10 then [DigitChar(n)] else NatToString(n / 10) + [DigitChar(n % 10)]
  }

  function DigitValue(c: char): nat
    requires IsDigit(c)
  {
    (c as int) - ('0' as int)
  }

  /** The value of a string of decimal digits. */
  function DigitsValue(s: string): nat
    requires forall i :: 0 <= i < |s| ==> IsDigit(s[i])
  {
    if |s| == 0 then 0
    else 10 * DigitsValue(s[..|s| - 1]) + DigitValue(s[|s| - 1])
  }

  /** Reading back a rendered number gives the number. */
  lemma {:induction false} NatToStringRoundTrip(n: nat)
    ensures DigitsValue(NatToString(n)) == n
  {
    if n >= 10 {
      var r := NatToString(n);
      assert r[..|r| - 1] == NatToString(n / 10);
      NatToStringRoundTrip(n / 10);
    }
  }

  /** Rendering is injective: distinct counts give distinct texts. */
  lemma NatToStringInjective(a: nat, b: nat)
    requires NatToString(a) == NatToString(b)
    ensures a == b
  {
    NatToStringRoundTrip(a);
    NatToStringRoundTrip(b);
  }

  /** JavaScript `String(n)` / Python `str(n)` for an integer. */
  function IntToString(n: int): (r: string)
    ensures n >= 0 ==> r == NatToString(n)
    ensures n < 0 ==> r == "-" + NatToString(-n)
  {
    if n >= 0 then NatToString(n) else "-" + NatToString(-n)
  }

  /** JavaScript `String(v)`, as a template literal `${v}` renders it. */
  function JsString(v: Value): string {
    match v
    case Undefined => "undefined"
    case Null => "null"
    case Bool(b) => if b then "true" else "false"
    case Num(n) => IntToString(n)
    case Str(s) => s
    case Obj(_) => "[object Object]"
  }

  // ---------------------------------------------------------------------
  // Substrings, suffixes and joining.

  predicate InfixAt(a: string, b: string, i: int) {
    0 <= i && i + |a| <= |b| && b[i..i + |a|] == a
  }

  /** `a` occurs somewhere in `b` (Python `a in b`). */
  ghost predicate IsInfix(a: string, b: string) {
    exists i :: InfixAt(a, b, i)
  }

  lemma InfixOfConcat(a: string, p: string, q: string)
    ensures InfixAt(a, p + a + q, |p|)
  {
    assert (p + a + q)[|p|..|p| + |a|] == a;
  }

  lemma InfixTransitive(a: string, b: string, c: string, i: int, j: int)
    requires InfixAt(a, b, i) && InfixAt(b, c, j)
    ensures InfixAt(a, c, i + j)
  {
    forall k | 0 <= k < |a|
      ensures c[i + j + k] == a[k]
    {
      assert b[i + k] == a[k];
      assert c[j + (i + k)] == b[i + k];
    }
  }

  /** Python `s.endswith(suffix)`. */
  predicate EndsWith(s: string, suffix: string) {
    |suffix| <= |s| && s[|s| - |suffix|..] == suffix
  }

  /** Python `sep.join(pieces)`. */
  function Join(pieces: seq<string>, sep: string): (r: string)
    ensures |pieces| == 0 ==> r == ""
    ensures |pieces| == 1 ==> r == pieces[0]
  {
    if |pieces| == 0 then ""
    else if |pieces| == 1 then pieces[0]
    else pieces[0] + sep + Join(pieces[1..], sep)
  }

  /** The outer parts of `a + s + r` sit at its start and at its end. */
  lemma OuterParts(a: string, s: string, r: string)
    ensures InfixAt(a, a + s + r, 0)
    ensures InfixAt(r, a + s + r, |a| + |s|)
  {
    assert (a + s + r)[..|a|] == a;
    assert (a + s + r)[|a| + |s|..] == r;
  }

  /** Where the `k`-th piece starts in `Join(pieces, sep)`: the lengths of
      the pieces and separators before it. */
  function JoinOffset(pieces: seq<string>, sep: string, k: int): nat
    requires 0 <= k < |pieces|
    decreases k
  {
    if k == 0 then 0 else |pieces[0]| + |sep| + JoinOffset(pieces[1..], sep, k - 1)
  }

  /** Two or more joined pieces: the first piece, the separator and the join
      of the rest occur at the offsets the lengths before them give, and
      their lengths add up to the whole, so nothing else is in it. */
  lemma JoinCons(pieces: seq<string>, sep: string)
    requires |pieces| >= 2
    ensures InfixAt(pieces[0], Join(pieces, sep), 0)
    ensures InfixAt(sep, Join(pieces, sep), |pieces[0]|)
    ensures InfixAt(Join(pieces[1..], sep), Join(pieces, sep), |pieces[0]| + |sep|)
    ensures |Join(pieces, sep)| == |pieces[0]| + |sep| + |Join(pieces[1..], sep)|
  {
    var rest := Join(pieces[1..], sep);
    assert Join(pieces, sep) == pieces[0] + sep + rest;
    OuterParts(pieces[0], sep, rest);
    InfixOfConcat(sep, pieces[0], rest);
  }

  /** Every joined piece appears in the joined text at its `JoinOffset`. */
  lemma {:induction false} JoinPieceAt(pieces: seq<string>, sep: string, k: int)
    requires 0 <= k < |pieces|
    ensures InfixAt(pieces[k], Join(pieces, sep), JoinOffset(pieces, sep, k))
  {
    if |pieces| == 1 {
      assert InfixAt(pieces[0], Join(pieces, sep), 0);
    } else {
      JoinCons(pieces, sep);
      if k > 0 {
        var tail := pieces[1..];
        JoinPieceAt(tail, sep, k - 1);
        assert tail[k - 1] == pieces[k];
        InfixTransitive(pieces[k], Join(tail, sep), Join(pieces, sep),
                        JoinOffset(tail, sep, k - 1), |pieces[0]| + |sep|);
      }
    }
  }

  /** Every piece but the last is followed directly by the separator, and the
      next piece starts right after it. */
  lemma {:induction false} JoinSeparatorAfter(pieces: seq<string>, sep: string, k: int)
    requires 0 <= k && k + 1 < |pieces|
    ensures JoinOffset(pieces, sep, k + 1) == JoinOffset(pieces, sep, k) + |pieces[k]| + |sep|
    ensures InfixAt(sep, Join(pieces, sep), JoinOffset(pieces, sep, k) + |pieces[k]|)
  {
    JoinCons(pieces, sep);
    var tail := pieces[1..];
    if k > 0 {
      JoinSeparatorAfter(tail, sep, k - 1);
      assert tail[k - 1] == pieces[k];
      InfixTransitive(sep, Join(tail, sep), Join(pieces, sep),
                      JoinOffset(tail, sep, k - 1) + |pieces[k]|, |pieces[0]| + |sep|);
    }
  }

  /** The joined text ends where the last piece ends: nothing follows it. */
  lemma {:induction false} JoinLength(pieces: seq<string>, sep: string)
    requires |pieces| > 0
    ensures |Join(pieces, sep)| == JoinOffset(pieces, sep, |pieces| - 1) + |pieces[|pieces| - 1]|
  {
    var n := |pieces|;
    if n > 1 {
      var tail := pieces[1..];
      JoinLength(tail, sep);
      JoinCons(pieces, sep);
      assert tail[n - 2] == pieces[n - 1];
      assert JoinOffset(pieces, sep, n - 1) == |pieces[0]| + |sep| + JoinOffset(tail, sep, n - 2);
    }
  }

  /** Every joined piece appears in the joined text at its `JoinOffset`, the
      separator follows it directly, and the next piece begins right after
      the separator: the pieces keep their order and consecutive pieces are
      separated by exactly `sep`. The last piece ends the text. Together these
      fix every character of the joined text. */
  lemma JoinContainsPiece(pieces: seq<string>, sep: string, k: int)
    requires 0 <= k < |pieces|
    ensures InfixAt(pieces[k], Join(pieces, sep), JoinOffset(pieces, sep, k))
    ensures k + 1 < |pieces| ==>
      JoinOffset(pieces, sep, k + 1) == JoinOffset(pieces, sep, k) + |pieces[k]| + |sep|
    ensures k + 1 < |pieces| ==>
      InfixAt(sep, Join(pieces, sep), JoinOffset(pieces, sep, k) + |pieces[k]|)
    ensures k + 1 == |pieces| ==>
      |Join(pieces, sep)| == JoinOffset(pieces, sep, k) + |pieces[k]|
  {
    JoinPieceAt(pieces, sep, k);
    if k + 1 < |pieces| {
      JoinSeparatorAfter(pieces, sep, k);
    } else {
      JoinLength(pieces, sep);
    }
  }

  // ---------------------------------------------------------------------
  // Whitespace trimming. JavaScript's `String.prototype.trim` and Python's
  // `str.strip()` use different whitespace sets; both are written out.

  /** WhiteSpace and LineTerminator code points of ECMAScript (section 12.2
      and 12.3 of ECMA-262), the set `trim` removes. */
  predicate IsJsWhitespace(c: char) {
    c == '\t' || c == '\n' || c == '\U{000B}' || c == '\U{000C}' || c == '\r' || c == ' '
    || c == '\U{00A0}' || c == '\U{1680}' || ('\U{2000}' <= c <= '\U{200A}')
    || c == '\U{2028}' || c == '\U{2029}' || c == '\U{202F}' || c == '\U{205F}'
    || c == '\U{3000}' || c == '\U{FEFF}'
  }

  /** The code points for which Python's `str.isspace()` holds, the set
      `str.strip()` removes. */
  predicate IsPyWhitespace(c: char) {
    ('\t' <= c <= '\r') || ('\U{001C}' <= c <= '\U{001F}') || c == ' '
    || c == '\U{0085}' || c == '\U{00A0}' || c == '\U{1680}' || ('\U{2000}' <= c <= '\U{200A}')
    || c == '\U{2028}' || c == '\U{2029}' || c == '\U{202F}' || c == '\U{205F}' || c == '\U{3000}'
  }

  /** The index of the first character at or after `i` that is not
      whitespace, or `|s|` when there is none. */
  function FirstKept(s: string, ws: char -> bool, i: nat): (k: nat)
    requires i <= |s|
    ensures i <= k <= |s|
    ensures forall j :: i <= j < k ==> ws(s[j])
    ensures k < |s| ==> !ws(s[k])
    decreases |s| - i
  {
    if i < |s| && ws(s[i]) then FirstKept(s, ws, i + 1) else i
  }

  /** One past the index of the last character before `hi` (and not before
      `lo`) that is not whitespace, or `lo` when there is none. */
  function EndKept(s: string, ws: char -> bool, lo: nat, hi: nat): (k: nat)
    requires lo <= hi <= |s|
    ensures lo <= k <= hi
    ensures forall j :: k <= j < hi ==> ws(s[j])
    ensures k > lo ==> !ws(s[k - 1])
    decreases hi - lo
  {
    if hi > lo && ws(s[hi - 1]) then EndKept(s, ws, lo, hi - 1) else hi
  }

  /** `s` without its leading and trailing characters satisfying `ws`: a
      contiguous slice of `s` whose ends are not whitespace, with only
      whitespace cut off on either side. */
  function Trim(s: string, ws: char -> bool): (r: string)
    ensures var a := FirstKept(s, ws, 0);
      && a + |r| <= |s| && r == s[a..a + |r|]
      && (forall i :: 0 <= i < a ==> ws(s[i]))
      && (forall i :: a + |r| <= i < |s| ==> ws(s[i]))
    ensures |r| > 0 ==> !ws(r[0]) && !ws(r[|r| - 1])
    ensures r == "" <==> forall i :: 0 <= i < |s| ==> ws(s[i])
  {
    var a := FirstKept(s, ws, 0);
    var b := EndKept(s, ws, a, |s|);
    s[a..b]
  }

  /** JavaScript `s.trim()`. */
  function JsTrim(s: string): string {
    Trim(s, IsJsWhitespace)
  }

  /** Python `s.strip()`. */
  function PyStrip(s: string): string {
    Trim(s, IsPyWhitespace)
  }

  /** Trimming is idempotent. */
  lemma TrimIdempotent(s: string, ws: char -> bool)
    ensures Trim(Trim(s, ws), ws) == Trim(s, ws)
  {
    var r := Trim(s, ws);
    if |r| > 0 {
      assert FirstKept(r, ws, 0) == 0;
      assert EndKept(r, ws, 0, |r|) == |r|;
    }
  }
}

=== FILE: end_to_end.dfy ===
/**
 The React client and the FastAPI backend put together: the request a
 workflow sends is read the way backend/main.py reads it, the backend's reply
 reaches the client as axios presents it, and the workflow's completion
 handles it. JSON serialization is taken to round-trip the values involved.
 */
module EndToEnd {
  import opened Common
  import opened Http
  import SettingsContext
  import ApiService
  import AuthService
  import FileUpload
  import ChatInterface
  import BackendMain
  import Chatbot

  /** A FastAPI `HTTPException` response body: `{"detail": <detail>}`. */
  function ErrorBody(detail: string): Value {
    Obj(map["detail" := Str(detail)])
  }

  /** How a backend reply reaches the client. A 2xx answer resolves with its
      body; an `HTTPException` rejects with a response whose body carries the
      detail; an unhandled exception rejects with a plain-text 500 that has
      no `detail`. */
  function ToAxios(reply: BackendMain.Reply): (r: Reply)
    ensures reply.Ok? <==> r.Success?
    ensures reply.Ok? ==> r.value == HttpResponse(200, reply.body)
    ensures reply.HttpError? ==> Detail(r.error) == Str(reply.detail)
    ensures reply.Crash? ==> Detail(r.error) == Undefined
  {
    match reply
    case Ok(body) => Success(HttpResponse(200, body))
    case HttpError(status, detail) =>
      Failure(AxiosError(Some(HttpResponse(status, ErrorBody(detail))), true,
                         "Request failed with status code " + IntToString(status)))
    case Crash =>
      Failure(AxiosError(Some(HttpResponse(500, Str("Internal Server Error"))), true,
                         "Request failed with status code 500"))
  }

  /** The `files` list the upload handler receives from a multipart form:
      the `files` file parts, in form order. */
  function FormFiles(parts: seq<Part>): (r: seq<BackendMain.UploadFile>)
    ensures |r| <= |parts|
    decreases |parts|
  {
    if |parts| == 0 then []
    else
      (if parts[0].FilePart? && parts[0].field == "files" then [BackendMain.UploadFile(parts[0].file.name)] else [])
      + FormFiles(parts[1..])
  }

  /** The names the browser sends for a batch. */
  function Names(files: seq<File>): (r: seq<BackendMain.UploadFile>)
    ensures |r| == |files|
    ensures forall i :: 0 <= i < |files| ==> r[i] == BackendMain.UploadFile(files[i].name)
  {
    seq(|files|, i requires 0 <= i < |files| => BackendMain.UploadFile(files[i].name))
  }

  /** The backend sees every file of the form the upload workflow builds,
      and only those, in batch order. */
  lemma {:induction false} FormFilesOfUploadForm(files: seq<File>, settings: map<string, Value>)
    ensures FormFiles(FileUpload.UploadForm(files, settings)) == Names(files)
    decreases |files|
  {
    var form := FileUpload.UploadForm(files, settings);
    if |files| == 0 {
      assert form == [JsonPart("settings", Obj(settings))];
      assert FormFiles(form[1..]) == [];
    } else {
      var rest := FileUpload.UploadForm(files[1..], settings);
      assert form[1..] == rest;
      FormFilesOfUploadForm(files[1..], settings);
      assert FormFiles(form) == [BackendMain.UploadFile(files[0].name)] + Names(files[1..]);
    }
  }

  /** The manager an upload from the client builds is configured entirely
      by the client's settings, which always carry all four keys, so the
      backend's own defaults (among them the directory "chroma_hr_db") never
      apply. Settings nobody changed arrive with the client's defaults. */
  lemma {:induction false} ClientSettingsConfigureManager(updates: seq<SettingsContext.Update>)
    ensures var s := SettingsContext.ApplyUpdates(SettingsContext.DefaultSettings(), updates);
      var c := BackendMain.ManagerConfigFrom(s);
      && "persistDir" in s && c.persistDirectory == s["persistDir"]
      && "embeddingModel" in s && c.embeddingModel == s["embeddingModel"]
      && "chunkSize" in s && c.chunkSize == s["chunkSize"]
      && "chunkOverlap" in s && c.chunkOverlap == s["chunkOverlap"]
    ensures SettingsContext.Untouched(updates, "persistDir") ==>
      BackendMain.ManagerConfigFrom(SettingsContext.ApplyUpdates(SettingsContext.DefaultSettings(), updates))
        .persistDirectory == Str("chroma_kb_db")
  {
    SettingsContext.UpdatesKeepFields(SettingsContext.DefaultSettings(), updates);
  }

  /** An upload from the client, answered by the backend: on success the
      batch empties and the status shows the backend's count message; on any
      failure the batch is kept. */
  lemma UploadEndToEnd(s: FileUpload.UploadState, settings: map<string, Value>,
                       manager: Option<BackendMain.ManagerConfig>, constructed: bool, ingest: Result<(), string>)
    requires |s.files| > 0
    ensures var step := FileUpload.StartUpload(s, settings);
      var out := BackendMain.UploadFiles(manager, FormFiles(step.sent.value.body.parts),
                                         BackendMain.Parsed(Obj(settings)), constructed, ingest);
      var fin := FileUpload.FinishUpload(step.next, ApiService.Await(ToAxios(out.reply)));
      && (out.reply.Ok? ==>
            fin.files == [] && fin.status == Some(FileUpload.Succeeded(Str(BackendMain.IngestedMessage(|s.files|)))))
      && (!out.reply.Ok? ==> fin.files == s.files)
      && (out.reply.Crash? ==> fin.status == Some(FileUpload.Errored(Str("Upload failed"))))
  {
    FormFilesOfUploadForm(s.files, settings);
  }

  /** The status the backend gives a rejected file type, as text. */
  lemma OnlyPdfText()
    ensures BackendMain.HttpExceptionText(400, BackendMain.OnlyPdfDetail()) == "400: Only PDF files are allowed"
  {
    FourHundred();
  }

  /** The decimal text of 400. */
  lemma FourHundred()
    ensures NatToString(400) == "400"
  {
    assert NatToString(4) == "4";
    assert NatToString(40) == NatToString(4) + [DigitChar(0)];
    assert NatToString(400) == NatToString(40) + [DigitChar(0)];
  }

  /** The backend's suffix check rejects the name "Report.PDF". */
  lemma UppercaseNameRejectedByBackend(manager: Option<BackendMain.ManagerConfig>, settings: map<string, Value>,
                                       ingest: Result<(), string>)
    ensures BackendMain.UploadFiles(manager, [BackendMain.UploadFile("Report.PDF")],
                                    BackendMain.Parsed(Obj(settings)), true, ingest).reply
      == BackendMain.HttpError(500, BackendMain.HttpExceptionText(400, BackendMain.OnlyPdfDetail()))
  {
    var files := [BackendMain.UploadFile("Report.PDF")];
    assert !EndsWith(files[0].filename, ".pdf") by {
      assert files[0].filename[|files[0].filename| - 4..] == ".PDF";
    }
    assert BackendMain.FirstNonPdf(files) == Some(0);
  }

  /** An `HTTPException` with a non-empty detail ends an upload with that
      detail as the error status; the batch is kept. */
  lemma ClientKeepsRejectedBatch(st: FileUpload.UploadState, status: int, detail: string)
    requires detail != ""
    ensures FileUpload.FinishUpload(st, ApiService.Await(ToAxios(BackendMain.HttpError(status, detail))))
      == st.(uploading := false, status := Some(FileUpload.Errored(Str(detail))))
  {
    var res := ApiService.Await(ToAxios(BackendMain.HttpError(status, detail)));
    assert Detail(res.error) == Str(detail);
  }

  /** The client accepts a file by its media type, the backend by a
      case-sensitive `.pdf` suffix. A PDF named "Report.PDF" is therefore
      taken into the batch and sent, the backend rejects the whole upload
      with a 500 carrying the 400's text ("400: Only PDF files are allowed",
      `OnlyPdfText`), and the client shows that text and keeps the batch. */
  lemma UppercaseExtensionRejected(settings: map<string, Value>, manager: Option<BackendMain.ManagerConfig>,
                                   ingest: Result<(), string>)
    ensures var f := File("Report.PDF", 1, "application/pdf");
      var dropped := FileUpload.OnDrop(FileUpload.Initial(), [f]);
      var step := FileUpload.StartUpload(dropped, settings);
      var out := BackendMain.UploadFiles(manager, FormFiles(step.sent.value.body.parts),
                                         BackendMain.Parsed(Obj(settings)), true, ingest);
      var fin := FileUpload.FinishUpload(step.next, ApiService.Await(ToAxios(out.reply)));
      var text := BackendMain.HttpExceptionText(400, BackendMain.OnlyPdfDetail());
      && dropped.files == [f]
      && out.reply == BackendMain.HttpError(500, text)
      && fin.files == [f]
      && fin.status == Some(FileUpload.Errored(Str(text)))
  {
    var f := File("Report.PDF", 1, "application/pdf");
    FileUpload.PdfFilesOfPdfs([f]);
    var dropped := FileUpload.OnDrop(FileUpload.Initial(), [f]);
    assert dropped.files == [f];
    var step := FileUpload.StartUpload(dropped, settings);
    FormFilesOfUploadForm([f], settings);
    assert FormFiles(step.sent.value.body.parts) == [BackendMain.UploadFile("Report.PDF")];
    UppercaseNameRejectedByBackend(manager, settings, ingest);
    var text := BackendMain.HttpExceptionText(400, BackendMain.OnlyPdfDetail());
    assert |text| > 0;
    ClientKeepsRejectedBatch(step.next, 500, text);
  }

  /** An `HTTPException` with a non-empty detail becomes the client's error
      turn, which shows that detail. */
  lemma ClientShowsError(st: ChatInterface.ChatState, status: int, detail: string)
    requires detail != ""
    ensures var fin := ChatInterface.FinishAsk(st, ApiService.Await(ToAxios(BackendMain.HttpError(status, detail))));
      fin.messages[|fin.messages| - 1] == ChatInterface.Message(ChatInterface.Bot, Str("Error: " + detail), true)
  {
    var res := ApiService.Await(ToAxios(BackendMain.HttpError(status, detail)));
    assert Detail(res.error) == Str(detail);
  }

  /** A question sent before any upload: the client shows the backend's 400
      detail as an error turn. */
  lemma AskWithoutStore(s: ChatInterface.ChatState, settings: map<string, Value>, load: Result<(), string>,
                        search: Result<seq<Chatbot.Doc>, string>, llm: Result<string, string>)
    requires ChatInterface.Submit(s, settings).sent.Some?
    ensures var step := ChatInterface.Submit(s, settings);
      var out := BackendMain.AskQuestion(None, step.sent.value.body.value.fields, load, search, llm);
      var fin := ChatInterface.FinishAsk(step.next, ApiService.Await(ToAxios(out.reply)));
      fin.messages[|fin.messages| - 1]
        == ChatInterface.Message(ChatInterface.Bot, Str("Error: " + BackendMain.NoDatabaseDetail()), true)
  {
    var step := ChatInterface.Submit(s, settings);
    var out := BackendMain.AskQuestion(None, step.sent.value.body.value.fields, load, search, llm);
    assert out.reply == BackendMain.HttpError(400, BackendMain.NoDatabaseDetail());
    assert |BackendMain.NoDatabaseDetail()| > 0;
    ClientShowsError(step.next, 400, BackendMain.NoDatabaseDetail());
  }

  /** The backend's side of a question the client sends with a loaded
      store: it searches with the client's `topK`, its prompt carries the
      question as sent, and a successful reply carries the answer. */
  lemma BackendAnswersRequest(q: string, settings: map<string, Value>, manager: BackendMain.ManagerConfig,
                              search: Result<seq<Chatbot.Doc>, string>, llm: Result<string, string>)
    ensures var out := BackendMain.AskQuestion(Some(manager), ApiService.AskRequest(q, settings).body.value.fields,
                                               Success(()), search, llm);
      && out.answering.Some?
      && ("topK" in settings ==> out.answering.value.searchK == settings["topK"])
      && (out.answering.value.llm.Some? ==>
            out.answering.value.llm.value.prompt == Chatbot.BuildPrompt(q, search.value))
      && (out.reply.Ok? ==> Field(out.reply.body, "answer") == Str(out.answering.value.answer.value))
  {
    var fields := ApiService.AskRequest(q, settings).body.value.fields;
    assert Common.Get(fields, "question", Null) == Str(q);
    assert Common.Get(fields, "settings", Obj(map[])) == Obj(settings);
  }

  /** A successful backend reply becomes the client's bot turn, holding the
      reply's `answer` field; a body of `null` (which `return` of `None`
      would produce) instead ends as the 'Failed to get response' error
      turn. */
  lemma ClientShowsAnswer(st: ChatInterface.ChatState, reply: BackendMain.Reply)
    requires reply.Ok?
    ensures var fin := ChatInterface.FinishAsk(st, ApiService.Await(ToAxios(reply)));
      && (!AccessThrows(reply.body) ==>
            fin.messages[|fin.messages| - 1] == ChatInterface.Message(ChatInterface.Bot, Field(reply.body, "answer"), false))
      && (AccessThrows(reply.body) ==>
            fin.messages[|fin.messages| - 1] == ChatInterface.Message(ChatInterface.Bot, Str("Error: Failed to get response"), true))
  {
  }

  /** A question answered with a loaded store: the backend searches with the
      client's `topK`, its prompt carries the trimmed question, and a
      successful answer becomes the client's bot turn. */
  lemma AskWithStore(s: ChatInterface.ChatState, settings: map<string, Value>, manager: BackendMain.ManagerConfig,
                     search: Result<seq<Chatbot.Doc>, string>, llm: Result<string, string>)
    requires ChatInterface.Submit(s, settings).sent.Some?
    ensures var step := ChatInterface.Submit(s, settings);
      var out := BackendMain.AskQuestion(Some(manager), step.sent.value.body.value.fields, Success(()), search, llm);
      var fin := ChatInterface.FinishAsk(step.next, ApiService.Await(ToAxios(out.reply)));
      && out.answering.Some?
      && ("topK" in settings ==> out.answering.value.searchK == settings["topK"])
      && (out.answering.value.llm.Some? ==>
            out.answering.value.llm.value.prompt == Chatbot.BuildPrompt(JsTrim(s.query), search.value))
      && (out.reply.Ok? ==>
            fin.messages[|fin.messages| - 1]
              == ChatInterface.Message(ChatInterface.Bot, Str(out.answering.value.answer.value), false))
  {
    var q := JsTrim(s.query);
    var step := ChatInterface.Submit(s, settings);
    assert step.sent.value == ApiService.AskRequest(q, settings);
    var fields := ApiService.AskRequest(q, settings).body.value.fields;
    assert step.sent.value.body.value.fields == fields;
    BackendAnswersRequest(q, settings, manager, search, llm);
    var out := BackendMain.AskQuestion(Some(manager), fields, Success(()), search, llm);
    if out.reply.Ok? {
      ClientShowsAnswer(step.next, out.reply);
    }
  }

  /** The two axios instances send the same login request, but only the
      auth service's carries the stored token; the instance the workflows
      use never does. */
  lemma OnlyAuthInstanceSendsToken(email: string, password: string, token: string, reply: Reply)
    requires token != ""
    ensures var viaAuth := AuthService.LoginUser(email, password, Some(token), reply).sent;
      var viaApi := ApiService.LoginRequest(email, password);
      && viaAuth.verb == viaApi.verb && viaAuth.path == viaApi.path && viaAuth.body == viaApi.body
      && "Authorization" !in viaApi.headers
      && "Authorization" in viaAuth.headers
      && AuthService.ParseBearer(viaAuth.headers["Authorization"]) == Some(token)
  {
    var config := Request(Post, "/login", JsonHeaders(),
                          JsonBody(Obj(map["email" := Str(email), "password" := Str(password)])), None);
    AuthService.BearerRoundTrip(config, token);
  }
}

=== FILE: file_upload.dfy ===
/**
 The ingestion workflow of frontend/src/components/FileUpload.js: a batch of
 selected files, an `uploading` flag and the status of the last upload. Each
 `await` is split into two events, the start (which sends the request) and
 the completion (which receives the oracle's answer); completions act on the
 state current at that moment, as React's functional updates do.
 */
module FileUpload {
  import opened Common
  import opened Http
  import ApiService

  /** The status line shown under the batch. */
  datatype Status = Succeeded(message: Value) | Errored(message: Value)

  datatype UploadState = UploadState(files: seq<File>, uploading: bool, status: Option<Status>)

  function Initial(): UploadState {
    UploadState([], false, None)
  }

  predicate IsPdf(f: File) {
    f.mimeType == "application/pdf"
  }

  predicate AllPdf(files: seq<File>) {
    forall i :: 0 <= i < |files| ==> IsPdf(files[i])
  }

  /** `acceptedFiles.filter(file => file.type === 'application/pdf')`: the
      PDFs, each as often as it was offered, nothing else. */
  function PdfFiles(files: seq<File>): (r: seq<File>)
    ensures AllPdf(r)
    ensures |r| <= |files|
  {
    if |files| == 0 then []
    else (if IsPdf(files[0]) then [files[0]] else []) + PdfFiles(files[1..])
  }

  /** A file survives the filter iff it was offered and is a PDF. */
  lemma {:induction false} PdfFilesMembers(files: seq<File>)
    ensures forall f :: f in PdfFiles(files) <==> f in files && IsPdf(f)
  {
    if |files| > 0 {
      PdfFilesMembers(files[1..]);
      assert files == [files[0]] + files[1..];
    }
  }

  /** Each PDF is kept as often as it was offered; every other file is
      dropped. */
  lemma {:induction false} PdfFilesCount(files: seq<File>)
    ensures forall f :: multiset(PdfFiles(files))[f] == if IsPdf(f) then multiset(files)[f] else 0
  {
    if |files| > 0 {
      PdfFilesCount(files[1..]);
      assert files == [files[0]] + files[1..];
    }
  }

  /** The filter looks at the first file, then filters the rest. */
  lemma PdfFilesCons(x: File, rest: seq<File>)
    ensures PdfFiles([x] + rest) == (if IsPdf(x) then [x] else []) + PdfFiles(rest)
  {
    assert ([x] + rest)[0] == x;
    assert ([x] + rest)[1..] == rest;
  }

  /** Filtering distributes over concatenation, so the PDFs keep their
      relative order. */
  lemma {:induction false} PdfFilesAppend(a: seq<File>, b: seq<File>)
    ensures PdfFiles(a + b) == PdfFiles(a) + PdfFiles(b)
  {
    if |a| == 0 {
      assert a + b == b;
    } else {
      var x, t := a[0], a[1..];
      assert a == [x] + t;
      assert a + b == [x] + (t + b);
      PdfFilesCons(x, t + b);
      PdfFilesCons(x, t);
      PdfFilesAppend(t, b);
    }
  }

  /** A sequence of PDFs passes the filter unchanged. */
  lemma {:induction false} PdfFilesOfPdfs(files: seq<File>)
    requires AllPdf(files)
    ensures PdfFiles(files) == files
  {
    if |files| > 0 {
      PdfFilesOfPdfs(files[1..]);
    }
  }

  /** `onDrop(acceptedFiles)`: the accepted PDFs are appended after the
      existing batch, which is left as it was; the flag and the status are
      not touched. */
  function OnDrop(s: UploadState, accepted: seq<File>): (r: UploadState)
    ensures |r.files| == |s.files| + |PdfFiles(accepted)|
    ensures r.files[..|s.files|] == s.files
    ensures r.files[|s.files|..] == PdfFiles(accepted)
    ensures AllPdf(s.files) ==> AllPdf(r.files)
    ensures r.uploading == s.uploading && r.status == s.status
  {
    s.(files := s.files + PdfFiles(accepted))
  }

  /** `xs.filter((_, i) => i !== index)` for the suffix of a sequence that
      starts at position `offset`: the element at position `index` (if it is
      in the suffix) is left out, the others keep their order. */
  function WithoutIndexFrom<T>(xs: seq<T>, index: int, offset: int): (r: seq<T>)
    ensures offset <= index < offset + |xs| ==> r == xs[..index - offset] + xs[index - offset + 1..]
    ensures !(offset <= index < offset + |xs|) ==> r == xs
    decreases |xs|
  {
    if |xs| == 0 then []
    else
      var rest := WithoutIndexFrom(xs[1..], index, offset + 1);
      assert xs == [xs[0]] + xs[1..];
      assert 0 < index - offset < |xs| ==> xs[..index - offset] == [xs[0]] + xs[1..][..index - offset - 1];
      assert 0 < index - offset < |xs| ==> xs[index - offset + 1..] == xs[1..][index - offset..];
      (if offset == index then [] else [xs[0]]) + rest
  }

  /** `removeFile(index)`: exactly the file at `index` leaves the batch and
      the others keep their order; an index outside the batch (negative
      included) changes nothing. */
  function RemoveFile(s: UploadState, index: int): (r: UploadState)
    ensures 0 <= index < |s.files| ==> r.files == s.files[..index] + s.files[index + 1..]
    ensures !(0 <= index < |s.files|) ==> r.files == s.files
    ensures AllPdf(s.files) ==> AllPdf(r.files)
    ensures r.uploading == s.uploading && r.status == s.status
  {
    var files := WithoutIndexFrom(s.files, index, 0);
    assert 0 <= index < |s.files| ==> forall i :: 0 <= i < |files| ==>
      files[i] == s.files[if i < index then i else i + 1];
    s.(files := files)
  }

  /** The multipart form `handleUpload` builds: one `files` field per batch
      file, in batch order, then the `settings` field. */
  function UploadForm(files: seq<File>, settings: map<string, Value>): (parts: seq<Part>)
    ensures |parts| == |files| + 1
    ensures forall i :: 0 <= i < |files| ==> parts[i] == FilePart("files", files[i])
    ensures parts[|files|] == JsonPart("settings", Obj(settings))
  {
    seq(|files|, i requires 0 <= i < |files| => FilePart("files", files[i])) + [JsonPart("settings", Obj(settings))]
  }

  /** The upload button: shown only for a non-empty batch, disabled while an
      upload is in flight. */
  predicate UploadButtonEnabled(s: UploadState) {
    |s.files| > 0 && !s.uploading
  }

  /** The start of `handleUpload`: an empty batch returns at once, with no
      request and no change. Otherwise the flag is raised, the status cleared
      and the whole batch sent with the current settings. There is no guard on
      the flag itself: only the button is disabled. */
  function StartUpload(s: UploadState, settings: map<string, Value>): (r: Step<UploadState>)
    ensures |s.files| == 0 <==> r.sent.None?
    ensures |s.files| == 0 ==> r.next == s
    ensures |s.files| > 0 ==> r.next == UploadState(s.files, true, None)
    ensures |s.files| > 0 ==> r.sent == Some(ApiService.UploadRequest(UploadForm(s.files, settings)))
  {
    if |s.files| == 0 then Step(s, None)
    else Step(s.(uploading := true, status := None),
              Some(ApiService.UploadRequest(UploadForm(s.files, settings))))
  }

  /** What the `catch` block of `handleUpload` does with an error: the
      status carries the backend's `detail`, or 'Upload failed' when there is
      none, the batch is kept and the flag drops. */
  function UploadCaught(s: UploadState, e: AxiosError): UploadState {
    s.(uploading := false, status := Some(Errored(Or(Detail(e), Str("Upload failed")))))
  }

  /** The completion of `handleUpload` with the awaited result of
      `uploadFiles`. Success: the status carries the response's `message` and
      the batch is emptied; but a body that is `null` or `undefined` makes
      `response.message` throw inside the `try`, and the `catch` block runs
      with that `TypeError`. Failure: the status carries the backend's
      `detail`, or 'Upload failed' when there is none, and the batch is kept.
      Either way the flag drops. */
  function FinishUpload(s: UploadState, result: Result<Value, AxiosError>): (r: UploadState)
    ensures !r.uploading
    ensures r.status.Some?
    ensures r.status.value.Succeeded? <==> result.Success? && !AccessThrows(result.value)
    ensures result.Success? && !AccessThrows(result.value) ==>
      r.files == [] && r.status == Some(Succeeded(Field(result.value, "message")))
    ensures result.Success? && AccessThrows(result.value) ==>
      r.files == s.files && r.status == Some(Errored(Str("Upload failed")))
    ensures result.Failure? ==> r.files == s.files
    ensures result.Failure? && Truthy(Detail(result.error)) ==> r.status == Some(Errored(Detail(result.error)))
    ensures result.Failure? && !Truthy(Detail(result.error)) ==> r.status == Some(Errored(Str("Upload failed")))
  {
    match result
    case Success(data) =>
      if AccessThrows(data) then UploadCaught(s, AccessError(data, "message"))
      else UploadState([], false, Some(Succeeded(Field(data, "message"))))
    case Failure(e) => UploadCaught(s, e)
  }

  /** The events the component reacts to. */
  datatype Event =
    | Drop(accepted: seq<File>)
    | Remove(index: int)
    | Upload(settings: map<string, Value>)
    | Completed(reply: Reply)

  function Handle(s: UploadState, e: Event): Step<UploadState> {
    match e
    case Drop(accepted) => Step(OnDrop(s, accepted), None)
    case Remove(index) => Step(RemoveFile(s, index), None)
    case Upload(settings) => StartUpload(s, settings)
    case Completed(reply) => Step(FinishUpload(s, ApiService.Await(reply)), None)
  }

  /** The state after a sequence of events. */
  function Run(s: UploadState, events: seq<Event>): UploadState
    decreases |events|
  {
    if |events| == 0 then s else Run(Handle(s, events[0]).next, events[1..])
  }

  /** Whatever the events, the batch only ever holds PDFs. */
  lemma {:induction false} RunKeepsAllPdf(s: UploadState, events: seq<Event>)
    requires AllPdf(s.files)
    ensures AllPdf(Run(s, events).files)
    decreases |events|
  {
    if |events| > 0 {
      RunKeepsAllPdf(Handle(s, events[0]).next, events[1..]);
    }
  }

  /** A start that is answered before anything else happens: a success whose
      body can be read empties the batch; a failure, or a body of `null` or
      `undefined`, leaves exactly the batch that was sent with an error
      status. */
  lemma UploadRoundTrip(s: UploadState, settings: map<string, Value>, result: Result<Value, AxiosError>)
    requires |s.files| > 0
    ensures var r := FinishUpload(StartUpload(s, settings).next, result);
      && !r.uploading
      && (r.files == [] <==> result.Success? && !AccessThrows(result.value))
      && (r.files != [] ==> r.files == s.files && r.status.Some? && r.status.value.Errored?)
  {
  }

  /** `handleUpload` does not look at the flag: called again while an upload
      is in flight (the button is disabled, the function is not), it sends the
      batch a second time. */
  lemma StartIgnoresUploading(s: UploadState, settings: map<string, Value>)
    requires |s.files| > 0 && s.uploading
    ensures !UploadButtonEnabled(s)
    ensures StartUpload(s, settings).sent.Some?
    ensures StartUpload(s, settings).sent == StartUpload(s.(uploading := false), settings).sent
  {
  }
}

=== FILE: http.dfy ===
/**
 The request and response shapes the two axios instances of the React client
 exchange with the backend. A request is a plain description (method, path,
 effective headers, body, timeout); the network itself is not modelled, its
 answer arrives as an oracle value.
 */
module Http {
  import opened Common

  datatype Method = Get | Post | Delete

  /** A browser `File` as the client sees it: name, byte size and media type.
      Its bytes are not modelled. */
  datatype File = File(name: string, size: nat, mimeType: string)

  /** One field of a multipart form: a file, or a JSON-serialized value (the
      text `JSON.stringify(value)`, kept as the value itself). */
  datatype Part = FilePart(field: string, file: File) | JsonPart(field: string, value: Value)

  datatype Body = NoBody | JsonBody(value: Value) | FormBody(parts: seq<Part>)

  /** An outgoing request: `verb` is the HTTP method, `headers` the
      effective headers (the instance defaults merged with the per-call
      ones), `timeoutMs` the per-call timeout when one is set. */
  datatype Request = Request(
    verb: Method,
    path: string,
    headers: map<string, string>,
    body: Body,
    timeoutMs: Option<nat>)

  /** A response with a 2xx status, or the `response` of a failed call. */
  datatype HttpResponse = HttpResponse(status: int, data: Value)

  /** An axios rejection: `response` when the server answered with an error
      status, `requestSent` when the request left the client (`error.request`),
      and the error's message. */
  datatype AxiosError = AxiosError(response: Option<HttpResponse>, requestSent: bool, message: string)

  /** What an awaited axios call yields: the response, or the rejection. */
  type Reply = Result<HttpResponse, AxiosError>

  /** `error.response?.data?.detail`: the backend's error text, when any. */
  function Detail(e: AxiosError): (r: Value)
    ensures e.response.None? ==> r == Undefined
    ensures e.response.Some? ==> r == Field(e.response.value.data, "detail")
  {
    match e.response
    case None => Undefined
    case Some(resp) => Field(resp.data, "detail")
  }

  /** Plain property access `v.key` throws a `TypeError` exactly when `v` is
      `null` or `undefined`; on any other value it reads like `v?.key`. */
  predicate AccessThrows(v: Value) {
    v.Null? || v.Undefined?
  }

  /** The `TypeError` of such an access as a `catch` block sees it: it has no
      `response` and no `request`, only V8's message. */
  function AccessError(v: Value, key: string): (e: AxiosError)
    ensures e.response.None? && !e.requestSent
    ensures Detail(e) == Undefined
  {
    AxiosError(None, false,
      "Cannot read properties of " + (if v.Null? then "null" else "undefined") + " (reading '" + key + "')")
  }

  /** The default headers both axios instances are created with. */
  function JsonHeaders(): map<string, string> {
    map["Content-Type" := "application/json"]
  }

  /** `process.env.REACT_APP_API_URL || 'http://localhost:8000'`. */
  function BaseUrl(env: Option<string>): (url: string)
    ensures env.Some? && env.value != "" ==> url == env.value
    ensures env.None? || env.value == "" ==> url == "http://localhost:8000"
  {
    if env.Some? && env.value != "" then env.value else "http://localhost:8000"
  }

  /** A workflow event's effect: the next state and the request it sends, if
      any. */
  datatype Step<S> = Step(next: S, sent: Option<Request>)
}

=== FILE: settings_context.dfy ===
/**
 The React settings store of frontend/src/context/SettingsContext.js: one
 object of processing parameters with hard-wired defaults, changed only by a
 single-field update. The store performs no range checking (the 1..10 slider
 and the numeric inputs of the settings panel are presentation), so neither
 does the model: any key may be set to any value, including keys the defaults
 do not mention.
 */
module SettingsContext {
  import opened Common

  /** The settings object, a JavaScript object keyed by field name. */
  type Settings = map<string, Value>

  /** The store's initial value. */
  function DefaultSettings(): (s: Settings)
    ensures s.Keys == {"persistDir", "embeddingModel", "llmModel", "topK", "chunkSize", "chunkOverlap"}
    ensures s["persistDir"] == Str("chroma_kb_db")
    ensures s["embeddingModel"] == Str("nomic-embed-text")
    ensures s["llmModel"] == Str("llama3")
    ensures s["topK"] == Num(4)
    ensures s["chunkSize"] == Num(1000)
    ensures s["chunkOverlap"] == Num(150)
  {
    map[
      "persistDir" := Str("chroma_kb_db"),
      "embeddingModel" := Str("nomic-embed-text"),
      "llmModel" := Str("llama3"),
      "topK" := Num(4),
      "chunkSize" := Num(1000),
      "chunkOverlap" := Num(150)
    ]
  }

  /** `updateSetting(key, value)`: the object spread `{...prev, [key]: value}`.
      The field `key` now holds `value`, every other field keeps its value, and
      no field disappears. */
  function UpdateSetting(prev: Settings, key: string, value: Value): (next: Settings)
    ensures key in next && next[key] == value
    ensures next.Keys == prev.Keys + {key}
    ensures forall k :: k in prev && k != key ==> next[k] == prev[k]
  {
    prev[key := value]
  }

  /** Applying the same update twice is the same as applying it once. */
  lemma UpdateIdempotent(s: Settings, key: string, value: Value)
    ensures UpdateSetting(UpdateSetting(s, key, value), key, value) == UpdateSetting(s, key, value)
  {
  }

  /** Updates of two distinct fields commute. */
  lemma UpdatesCommute(s: Settings, k1: string, v1: Value, k2: string, v2: Value)
    requires k1 != k2
    ensures UpdateSetting(UpdateSetting(s, k1, v1), k2, v2)
         == UpdateSetting(UpdateSetting(s, k2, v2), k1, v1)
  {
  }

  /** A later update of the same field overrides an earlier one. */
  lemma LastUpdateWins(s: Settings, key: string, v1: Value, v2: Value)
    ensures UpdateSetting(UpdateSetting(s, key, v1), key, v2) == UpdateSetting(s, key, v2)
  {
  }

  /** One `updateSetting` call, as a settings panel control issues it. */
  datatype Update = Update(key: string, value: Value)

  /** The store after a sequence of updates, applied in order. */
  function ApplyUpdates(s: Settings, updates: seq<Update>): Settings
    decreases |updates|
  {
    if |updates| == 0 then s
    else ApplyUpdates(UpdateSetting(s, updates[0].key, updates[0].value), updates[1..])
  }

  /** No update in `updates` targets `key`. */
  predicate Untouched(updates: seq<Update>, key: string) {
    forall j :: 0 <= j < |updates| ==> updates[j].key != key
  }

  /** Updates never remove a field: every field of the initial object is still
      present after any sequence of updates, and a field not touched by any
      update keeps its initial value. */
  lemma {:induction false} UpdatesKeepFields(s: Settings, updates: seq<Update>)
    ensures s.Keys <= ApplyUpdates(s, updates).Keys
    ensures forall k :: k in s && Untouched(updates, k) ==> ApplyUpdates(s, updates)[k] == s[k]
    decreases |updates|
  {
    if |updates| > 0 {
      var s' := UpdateSetting(s, updates[0].key, updates[0].value);
      UpdatesKeepFields(s', updates[1..]);
      forall k | k in s && Untouched(updates, k)
        ensures ApplyUpdates(s, updates)[k] == s[k]
      {
        assert updates[0].key != k;
        forall j | 0 <= j < |updates[1..]|
          ensures updates[1..][j].key != k
        {
          assert updates[1..][j] == updates[j + 1];
        }
      }
    }
  }

  /** The value a settings provider hands to `useSettings`: the current
      object and its update function (represented by the object alone). */
  datatype Provider = Provider(settings: Settings)

  /** `useSettings()`: the context value when a provider encloses the caller,
      otherwise the error the hook throws. */
  function UseSettings(context: Option<Provider>): (r: Result<Provider, string>)
    ensures context.Some? <==> r.Success?
    ensures context.Some? ==> r.value == context.value
    ensures context.None? ==> r.error == "useSettings must be used within a SettingsProvider"
  {
    match context
    case Some(p) => Success(p)
    case None => Failure("useSettings must be used within a SettingsProvider")
  }
}

=== FILE: streamlit_app.dfy ===
/**
 The decision logic of streamlit_app.py, the single-process interface: the
 settings check that decides when the `VectorStoreManager` is rebuilt, the
 bounded retry loop of `safe_delete_database`, the "DELETE" confirmation gate
 and the chat-history updates of the question tab. Streamlit's session state
 is a value threaded through the functions; the file system, the vector store
 and the language model are oracles.
 */
module StreamlitApp {
  import opened Common
  import Chatbot

  /** The four sidebar values a vector store is built from (the
      `current_settings` dict). */
  datatype StoreSettings = StoreSettings(persistDir: string, embeddingModel: string, chunkSize: int, chunkOverlap: int)

  /** Everything the sidebar returns on one run. */
  datatype Sidebar = Sidebar(
    persistDir: string,
    embeddingModel: string,
    llmModel: string,
    topK: int,
    chunkSize: int,
    chunkOverlap: int)

  /** The sidebar's initial values. */
  function DefaultSidebar(): Sidebar {
    Sidebar("chroma_kb_db", "nomic-embed-text", "llama3", 4, 1000, 150)
  }

  function StoreSettingsOf(sb: Sidebar): StoreSettings {
    StoreSettings(sb.persistDir, sb.embeddingModel, sb.chunkSize, sb.chunkOverlap)
  }

  datatype Speaker = UserTurn | AssistantTurn

  /** One entry of `chat_history`. */
  datatype Turn = Turn(role: Speaker, content: string)

  /** The session state: the conversation, the manager (recorded by the
      settings it was built from) and the settings of the last build. */
  datatype AppState = AppState(history: seq<Turn>, manager: Option<StoreSettings>, lastSettings: Option<StoreSettings>)

  function InitialApp(): AppState {
    AppState([], None, None)
  }

  // ---------------------------------------------------------------------
  // Rebuilding the manager
  // ---------------------------------------------------------------------

  /** The manager is rebuilt when there is none or when the store settings
      differ from those of the last build. */
  predicate NeedsRebuild(s: AppState, sb: Sidebar) {
    s.manager.None? || s.lastSettings != Some(StoreSettingsOf(sb))
  }

  /** The outcome of the settings check: the new state, whether the "Settings
      updated!" notice is shown, and whether the run stopped because the
      constructor raised. */
  datatype Refresh = Refresh(state: AppState, notice: bool, stopped: bool)

  /** The notice condition as the code evaluates it: `last_settings` is read
      after it has just been assigned, so it is never None there. */
  function SettingsNoticeAsWritten(s: AppState, sb: Sidebar): bool {
    var changed := s.lastSettings != Some(StoreSettingsOf(sb));
    var lastAfterAssignment := Some(StoreSettingsOf(sb));
    changed && lastAfterAssignment.Some?
  }

  /** The notice condition as intended: the settings changed and there was
      an earlier build to change from. */
  function SettingsNotice(s: AppState, sb: Sidebar): bool {
    s.lastSettings != Some(StoreSettingsOf(sb)) && s.lastSettings.Some?
  }

  /** The settings check at the top of every run. `constructed` is whether
      the `VectorStoreManager` constructor returned. No rebuild leaves
      everything as it was; a successful rebuild records the new settings;
      a failing one shows its error and stops the run with the state
      untouched. */
  function RefreshManager(s: AppState, sb: Sidebar, constructed: bool): (r: Refresh)
    ensures !NeedsRebuild(s, sb) ==> r == Refresh(s, false, false)
    ensures NeedsRebuild(s, sb) && constructed ==>
      r.state == AppState(s.history, Some(StoreSettingsOf(sb)), Some(StoreSettingsOf(sb))) && !r.stopped
    ensures NeedsRebuild(s, sb) && !constructed ==> r.state == s && r.stopped && !r.notice
    ensures r.notice <==>
      constructed && s.lastSettings.Some? && s.lastSettings != Some(StoreSettingsOf(sb))
    ensures r.state.history == s.history
  {
    if !NeedsRebuild(s, sb) then Refresh(s, false, false)
    else if !constructed then Refresh(s, false, true)
    else
      var cur := StoreSettingsOf(sb);
      Refresh(s.(manager := Some(cur), lastSettings := Some(cur)), SettingsNotice(s, sb), false)
  }

  /** The first run with the sidebar untouched builds the manager from the
      default store settings. */
  lemma FirstRunBuildsDefaults()
    ensures var r := RefreshManager(InitialApp(), DefaultSidebar(), true);
      && r.state.manager == Some(StoreSettings("chroma_kb_db", "nomic-embed-text", 1000, 150))
      && r.state.lastSettings == r.state.manager
      && !r.stopped
  {
  }

  /** The language model and the number of chunks are read on every run but
      never cause a rebuild. */
  lemma RebuildIgnoresLlmAndTopK(s: AppState, sb: Sidebar, llmModel: string, topK: int, constructed: bool)
    ensures var sb' := sb.(llmModel := llmModel, topK := topK);
      NeedsRebuild(s, sb) == NeedsRebuild(s, sb')
      && RefreshManager(s, sb, constructed) == RefreshManager(s, sb', constructed)
  {
  }

  /** After a successful build, a run with the same sidebar builds nothing
      and shows no notice. */
  lemma RefreshIdempotent(s: AppState, sb: Sidebar)
    ensures var once := RefreshManager(s, sb, true).state;
      RefreshManager(once, sb, true) == Refresh(once, false, false)
  {
  }

  /** After a successful build, changing any of the four store settings
      rebuilds the manager with the new values and shows the notice. */
  lemma StoreChangeRebuilds(s: AppState, sb: Sidebar, sb2: Sidebar)
    requires StoreSettingsOf(sb) != StoreSettingsOf(sb2)
    ensures var once := RefreshManager(s, sb, true).state;
      var twice := RefreshManager(once, sb2, true);
      NeedsRebuild(once, sb2) && twice.state.manager == Some(StoreSettingsOf(sb2)) && twice.notice
  {
  }

  /** The notice as written is shown on the very first run, when nothing was
      updated; the intended condition is false there. */
  lemma FirstRunNoticeAsWritten(sb: Sidebar)
    ensures SettingsNoticeAsWritten(InitialApp(), sb)
    ensures !RefreshManager(InitialApp(), sb, true).notice
  {
  }

  /** The two conditions differ only on the first build: whenever an earlier
      build exists they agree. */
  lemma NoticeAgreesAfterFirstBuild(s: AppState, sb: Sidebar)
    requires s.lastSettings.Some?
    ensures SettingsNoticeAsWritten(s, sb) == SettingsNotice(s, sb)
  {
  }

  /** A manager released (by a deletion) with the settings unchanged is
      rebuilt on the next run, without the notice. */
  lemma RebuildAfterRelease(s: AppState, sb: Sidebar)
    requires s.lastSettings == Some(StoreSettingsOf(sb))
    ensures var r := RefreshManager(s.(manager := None), sb, true);
      r.state.manager == Some(StoreSettingsOf(sb)) && !r.notice
  {
  }

  // ---------------------------------------------------------------------
  // Deleting the database
  // ---------------------------------------------------------------------

  /** What one deletion attempt meets: the directory is absent, it is
      removed, removal raises a `PermissionError`, or it raises anything
      else (each error as its `str`). */
  datatype Attempt = Missing | Removed | Locked(error: string) | Failed(error: string)

  /** The message `safe_delete_database` returns, before rendering. */
  datatype DeleteMessage =
    | Deleted(dir: string)
    | NotFound(dir: string)
    | StillLocked(error: string)
    | Unexpected(error: string)
    | Exhausted

  /** The text shown when the directory is still locked after the last
      attempt. */
  function LockMessage(e: string): string {
    "\n" +
    "                \U{26A0}\U{FE0F} **Windows File Lock Issue**\n" +
    "                \n" +
    "                The database files are still in use. This can happen on Windows when:\n" +
    "                - The database was recently accessed\n" +
    "                - File handles haven't been released yet\n" +
    "                \n" +
    "                **Solutions:**\n" +
    "                1. Click the button again (files may be released now)\n" +
    "                2. Restart the Streamlit app: `Ctrl+C` then `streamlit run streamlit_app.py`\n" +
    "                3. Close all other apps that might be accessing the database\n" +
    "                \n" +
    "                **Error details:** " + e + "\n" +
    "                "
  }

  function Render(m: DeleteMessage): string {
    match m
    case Deleted(dir) => "Successfully deleted " + dir
    case NotFound(dir) => "Directory " + dir + " doesn't exist"
    case StillLocked(e) => LockMessage(e)
    case Unexpected(e) => "Unexpected error: " + e
    case Exhausted => "Failed after maximum retries"
  }

  /** The result of a deletion: success, its message, and how many attempts
      were made. */
  datatype Deletion = Deletion(success: bool, message: DeleteMessage, attempts: nat)

  /** The attempts from number `k` on, written as a recursion: attempt `k`
      either ends the deletion or, on a `PermissionError` with attempts
      left, hands over to attempt `k + 1`. With no attempt left to make the
      result is the "maximum retries" failure. */
  function DeleteFrom(dir: string, maxRetries: int, outcome: nat -> Attempt, k: nat): (d: Deletion)
    ensures d.attempts > k || d == Deletion(false, Exhausted, k)
    decreases maxRetries - k
  {
    if k >= maxRetries then Deletion(false, Exhausted, k)
    else
      match outcome(k)
      case Missing => Deletion(true, NotFound(dir), k + 1)
      case Removed => Deletion(true, Deleted(dir), k + 1)
      case Failed(e) => Deletion(false, Unexpected(e), k + 1)
      case Locked(e) =>
        if k < maxRetries - 1 then DeleteFrom(dir, maxRetries, outcome, k + 1)
        else Deletion(false, StillLocked(e), k + 1)
  }

  /** The loop of `safe_delete_database(dir, maxRetries)`; `outcome(k)` is
      what attempt `k` meets. An absent directory and a completed removal
      succeed at once; any error other than a `PermissionError` fails at
      once; a `PermissionError` is retried while attempts remain and fails
      with the lock message on the last one. With no attempts at all the
      result is the "maximum retries" failure. */
  method SafeDeleteDatabase(dir: string, maxRetries: int, outcome: nat -> Attempt)
    returns (success: bool, message: DeleteMessage, attempts: nat)
    ensures Deletion(success, message, attempts) == DeleteFrom(dir, maxRetries, outcome, 0)
    ensures maxRetries > 0 ==> 1 <= attempts <= maxRetries
    ensures maxRetries <= 0 ==> attempts == 0
    ensures message == Exhausted <==> maxRetries <= 0
    ensures message == Exhausted ==> !success
    ensures success <==> message.Deleted? || message.NotFound?
    ensures forall j :: 0 <= j < attempts - 1 ==> outcome(j).Locked?
    ensures attempts > 0 && outcome(attempts - 1) == Missing ==> message == NotFound(dir)
    ensures attempts > 0 && outcome(attempts - 1) == Removed ==> message == Deleted(dir)
    ensures attempts > 0 && outcome(attempts - 1).Failed? ==> message == Unexpected(outcome(attempts - 1).error)
    ensures attempts > 0 && outcome(attempts - 1).Locked? ==>
      message == StillLocked(outcome(attempts - 1).error) && attempts == maxRetries
  {
    var k: nat := 0;
    while k < maxRetries
      invariant k == 0 || k < maxRetries
      invariant forall j :: 0 <= j < k ==> outcome(j).Locked?
      invariant DeleteFrom(dir, maxRetries, outcome, k) == DeleteFrom(dir, maxRetries, outcome, 0)
      decreases maxRetries - k
    {
      match outcome(k) {
        case Missing =>
          return true, NotFound(dir), k + 1;
        case Removed =>
          return true, Deleted(dir), k + 1;
        case Failed(e) =>
          return false, Unexpected(e), k + 1;
        case Locked(e) =>
          if k < maxRetries - 1 {
            k := k + 1;
          } else {
            return false, StillLocked(e), k + 1;
          }
      }
    }
    return false, Exhausted, k;
  }

  /** With the default three attempts, three `PermissionError`s in a row end
      with the lock message carrying the third error. */
  lemma ThreeLocksFail(dir: string, outcome: nat -> Attempt)
    requires outcome(0).Locked? && outcome(1).Locked? && outcome(2).Locked?
    ensures DeleteFrom(dir, 3, outcome, 0) == Deletion(false, StillLocked(outcome(2).error), 3)
  {
  }

  /** The confirmation gate: the exact text "DELETE", nothing else. */
  predicate DeleteEnabled(confirm: string) {
    confirm == "DELETE"
  }

  /** The delete action of the database tab. Without the exact confirmation
      text and a click nothing happens. Otherwise the manager is released
      first, whatever the deletion then does, and the database is deleted
      with three attempts; success also empties the conversation, failure
      keeps it. The deletion's result is returned, and its rendered message
      is what is shown. */
  method ClearDatabase(s: AppState, persistDir: string, confirm: string, clicked: bool, outcome: nat -> Attempt)
    returns (r: AppState, deletion: Option<Deletion>, shown: Option<string>)
    ensures !(clicked && DeleteEnabled(confirm)) ==> r == s && deletion.None? && shown.None?
    ensures clicked && DeleteEnabled(confirm) ==>
      && deletion == Some(DeleteFrom(persistDir, 3, outcome, 0))
      && shown == Some(Render(deletion.value.message))
      && r.manager.None? && r.lastSettings == s.lastSettings
      && r.history == (if deletion.value.success then [] else s.history)
  {
    if !(clicked && DeleteEnabled(confirm)) {
      return s, None, None;
    }
    var success, message, attempts := SafeDeleteDatabase(persistDir, 3, outcome);
    deletion := Some(Deletion(success, message, attempts));
    r := s.(manager := None);
    if success {
      r := r.(history := []);
    }
    shown := Some(Render(message));
  }

  // ---------------------------------------------------------------------
  // The question tab
  // ---------------------------------------------------------------------

  function QueryFailedText(e: string): string {
    "\U{274C} Query failed: " + e
  }

  /** The outcome of one run of the question tab: the conversation after
      it, what was asked of the answering step, and the error shown. */
  datatype ChatOutcome = ChatOutcome(history: seq<Turn>, answering: Option<Chatbot.Answering>, error: Option<string>)

  /** The turns and the error that follow the user turn once the store has
      loaded: a successful answer is appended as an assistant turn; a failing
      one is shown as the query failure and appends nothing. */
  function Record(asked: seq<Turn>, answer: Result<string, string>): (r: (seq<Turn>, Option<string>))
    ensures answer.Success? ==> r == (asked + [Turn(AssistantTurn, answer.value)], None)
    ensures answer.Failure? ==> r == (asked, Some(QueryFailedText(answer.error)))
  {
    match answer
    case Success(text) => (asked + [Turn(AssistantTurn, text)], None)
    case Failure(e) => (asked, Some(QueryFailedText(e)))
  }

  /** The Ask button with the database present. A query that is blank after
      `strip()` changes nothing. Otherwise the query, unstripped, is appended
      as a user turn first; the store is loaded and the question answered
      with the sidebar's `top_k` and model; only a successful answer is
      appended as an assistant turn, and any exception is shown instead,
      leaving the user turn unanswered. */
  function AskQuestion(history: seq<Turn>, query: string, clicked: bool, topK: int, llmModel: string,
                       load: Result<(), string>, search: Result<seq<Chatbot.Doc>, string>,
                       llm: Result<string, string>): (r: ChatOutcome)
    ensures !clicked || PyStrip(query) == "" ==> r == ChatOutcome(history, None, None)
    ensures clicked && PyStrip(query) != "" ==>
      |r.history| > |history| && r.history[..|history| + 1] == history + [Turn(UserTurn, query)]
    ensures load.Failure? || !clicked ==> r.answering.None?
    ensures clicked && PyStrip(query) != "" && load.Success? ==>
      r.answering == Some(Chatbot.AnswerQuestion(query, Num(topK), Str(llmModel), search, llm))
    ensures clicked && PyStrip(query) != "" && load.Failure? ==> r.error == Some(QueryFailedText(load.error))
    ensures r.answering.Some? && r.answering.value.answer.Failure? ==>
      r.error == Some(QueryFailedText(r.answering.value.answer.error))
    ensures r.error.Some? ==> r.history == history + [Turn(UserTurn, query)]
    ensures r.answering.Some? && r.answering.value.answer.Success? ==>
      r.error.None? &&
      r.history == history + [Turn(UserTurn, query), Turn(AssistantTurn, r.answering.value.answer.value)]
  {
    if !clicked || PyStrip(query) == "" then ChatOutcome(history, None, None)
    else
      var asked := history + [Turn(UserTurn, query)];
      assert asked[..|history| + 1] == asked;
      match load
      case Failure(e) => ChatOutcome(asked, None, Some(QueryFailedText(e)))
      case Success(_) =>
        var a := Chatbot.AnswerQuestion(query, Num(topK), Str(llmModel), search, llm);
        var (turns, error) := Record(asked, a.answer);
        assert turns[..|history| + 1] == asked;
        ChatOutcome(turns, Some(a), error)
  }

  /** The number of turns of `h` spoken by `role`. */
  function CountRole(h: seq<Turn>, role: Speaker): (n: nat)
    ensures n <= |h|
    decreases |h|
  {
    if |h| == 0 then 0
    else CountRole(h[..|h| - 1], role) + (if h[|h| - 1].role == role then 1 else 0)
  }

  lemma {:induction false} CountRoleAppend(h: seq<Turn>, t: Turn, role: Speaker)
    ensures CountRole(h + [t], role) == CountRole(h, role) + (if t.role == role then 1 else 0)
  {
    assert (h + [t])[..|h + [t]| - 1] == h;
  }

  /** An accepted question adds one user turn; it is answered by one
      assistant turn exactly when no error is shown, so every failure leaves
      one more unanswered question in the conversation. */
  lemma {:induction false} FailureLeavesUnansweredTurn(history: seq<Turn>, query: string, topK: int, llmModel: string,
                                                       load: Result<(), string>,
                                                       search: Result<seq<Chatbot.Doc>, string>,
                                                       llm: Result<string, string>)
    requires PyStrip(query) != ""
    ensures var r := AskQuestion(history, query, true, topK, llmModel, load, search, llm);
      && CountRole(r.history, UserTurn) == CountRole(history, UserTurn) + 1
      && (r.error.Some? ==> CountRole(r.history, AssistantTurn) == CountRole(history, AssistantTurn))
      && (r.error.None? ==> CountRole(r.history, AssistantTurn) == CountRole(history, AssistantTurn) + 1)
  {
    var r := AskQuestion(history, query, true, topK, llmModel, load, search, llm);
    var user := Turn(UserTurn, query);
    CountRoleAppend(history, user, UserTurn);
    CountRoleAppend(history, user, AssistantTurn);
    if r.error.None? {
      var bot := r.history[|history| + 1];
      assert r.history == (history + [user]) + [bot];
      CountRoleAppend(history + [user], bot, UserTurn);
      CountRoleAppend(history + [user], bot, AssistantTurn);
    }
  }

  /** One run of the question tab. Without a database directory the tab
      shows only a warning and nothing changes. Clear Chat empties the
      conversation and reruns the script before the Ask button is looked
      at; otherwise the Ask button is handled. */
  function ChatTab(history: seq<Turn>, dbExists: bool, clearClicked: bool, query: string, askClicked: bool,
                   topK: int, llmModel: string, load: Result<(), string>,
                   search: Result<seq<Chatbot.Doc>, string>, llm: Result<string, string>): (r: ChatOutcome)
    ensures !dbExists ==> r == ChatOutcome(history, None, None)
    ensures dbExists && clearClicked ==> r.history == [] && r.answering.None? && r.error.None?
    ensures r.history != [] || history == [] || clearClicked
    ensures dbExists && !clearClicked ==>
      r == AskQuestion(history, query, askClicked, topK, llmModel, load, search, llm)
  {
    if !dbExists then ChatOutcome(history, None, None)
    else if clearClicked then ChatOutcome([], None, None)
    else AskQuestion(history, query, askClicked, topK, llmModel, load, search, llm)
  }
}
